=== FILE: README.md ===
# Natural-language queries over the `alunos` table — a Dafny model

The application turns a question in Portuguese into a PostgreSQL query over
one table of students (`alunos`), runs the query, and proposes a chart for
the result. Users can save a question as a favourite. This project models
the core of that pipeline and proves properties of the model:

- **Server actions** (`Actions`):
  - the read-only gate in front of the database;
  - how store errors are reported;
  - the failure messages of the three model-backed actions;
  - the palette colours that replace the chart colours the model proposed.
- **Favourites API** (`Suggestions`):
  - GET, POST and DELETE of `/api/suggestions` over a `suggestions` table;
  - the table's `UNIQUE` constraint on `query`.
- **Query viewer** (`QueryViewer`):
  - a state machine for the component that shows the generated SQL;
  - how it collapses long queries, asks for an explanation, and keeps its
    favourite star in step with the API.
- **Support modules**:
  - `Text`: the JavaScript string operations the code relies on (`trim`,
    `toLowerCase`, `startsWith`, `includes`);
  - `Decimal`: decimal numerals for the palette tokens;
  - `Wrappers`: `Option` and `Result`.

The language model and Postgres are oracles:
- The model is a function-typed parameter that returns either a value or the
  message of the error it threw.
- `sql.query` is a function from the statement text to rows or an error.
- For the favourites table, a failure of the database is a flag, `dbFails`.
  A failed call is taken to have written nothing.
- The clock that fills `created_at` is a parameter, `now`.

**The gate is a plain substring test.** `runGenerateSQLQuery` lower-cases
the trimmed query and checks two things:
- that it starts with `select`;
- that none of nine words occurs in it as a plain substring.

It has no whole-word matching and no check for `;`. The check is
`Actions.Rejects`, and `Actions.AcceptsExactly` restates it on the raw query.
Four lemmas show what follows from it:
- `Actions.SeparatorNotChecked`: two accepted queries, once normalised and
  joined by `;`, form an accepted query.
- `Actions.AcceptsTwoStatements`: `SELECT 1; SELECT 2` passes the gate.
- `Actions.RejectsColumnNamedUpdateDate`: a column named `update_date` is
  rejected.
- `Actions.RejectsColumnNamedCreatedAt`: a column named `created_at` is
  rejected.

**A series named `__proto__` gets no colour.** `generateChartConfig` assigns
the palette colours into a plain object literal. Assigning to its
`__proto__` key calls the setter inherited from `Object.prototype`. That
setter ignores a string value, so the assignment stores nothing. The model
skips that key (`Actions.AssignColors`). The colour lemmas state their
results for every other key.

**The `...` preview only appears after a change of props.** The viewer
initialises `queryExpanded` to whether the query is longer than the cutoff,
and nothing ever collapses it again. So for the query the viewer was
mounted with, the collapsed preview is always the whole query
(`QueryViewer.CollapsedPreviewIsWholeQuery`). The truncated preview with
`...` is shown only when a longer `activeQuery` arrives as a new prop, since
that does not re-run the initialiser (`QueryViewer.LongerPropsAreCutOff`).

## Model

| member | source | states |
|---|---|---|
| Text.Trim | app/actions.ts:70 | `trim()` yields the infix that only whitespace and line terminators surround, and neither end of it is such a character |
| Text.TrimCharacterized | app/actions.ts:70 | an unpadded infix that only padding surrounds is the one and only result of `trim()` |
| Text.TrimIgnoresPadding | app/actions.ts:70 | adding whitespace or line terminators at either end does not change the trimmed string |
| Text.TrimIdempotent | app/actions.ts:70 | trimming twice is trimming once |
| Text.Lower | app/actions.ts:70 | `toLowerCase()` keeps the length and lower-cases each code point on its own |
| Text.LowerIdempotent | app/actions.ts:70 | lower-casing twice is lower-casing once |
| Text.LowerAppend | app/actions.ts:70 | lower-casing distributes over concatenation |
| Text.StartsWith | app/actions.ts:70 | `startsWith(prefix)`: the prefix fits in the string and its first characters are the prefix |
| Text.Includes | app/actions.ts:71-79 | `includes(word)`: the word occurs at some position of the string |
| Text.TrimLowerCommute | app/actions.ts:70 | `trim().toLowerCase()` equals `toLowerCase().trim()`, because lower-casing never turns padding into text or text into padding |
| Actions.Normalize | app/actions.ts:70-79 | the text every test of the gate looks at, `query.trim().toLowerCase()` |
| Actions.Rejects | app/actions.ts:69-82 | the condition under which `runGenerateSQLQuery` throws "Only SELECT queries are allowed": the trimmed, lower-cased query does not start with `select`, or contains one of the nine words |
| Actions.AcceptsExactly | app/actions.ts:69-82 | a query passes the gate if and only if it spells `select` in some letter case right after its leading whitespace, and none of the nine words occurs anywhere in it in any letter case |
| Actions.RejectsNonSelect | app/actions.ts:70 | a query that does not spell `select` in some letter case right after its leading whitespace is rejected, whatever else it holds |
| Actions.SelectPrefixRaw | app/actions.ts:70 | the trimmed, lower-cased query starts with `select` exactly when the raw query spells `select`, in any case, right after its leading whitespace |
| Actions.NormalizedOccurrenceFromRaw | app/actions.ts:70-79 | every occurrence of a word in the trimmed, lower-cased query comes from a stretch of the raw query that lower-cases to that word |
| Actions.WordSurvivesNormalize | app/actions.ts:70-79 | a run of letters in any case anywhere in the query is still present, lower-cased, in the normalised query the gate searches |
| Actions.RejectsForbiddenWordAnywhere | app/actions.ts:71-79 | a forbidden word in any letter case at any position of the query, even inside an identifier, rejects it |
| Actions.RejectsEmbeddedWord | app/actions.ts:71-79 | a forbidden word placed between any two texts rejects the query |
| Actions.RejectsInjectedDrop | app/actions.ts:71 | `SELECT * FROM alunos; DROP TABLE alunos;` is rejected |
| Actions.RejectsColumnNamedUpdateDate | app/actions.ts:74 | `SELECT update_date FROM alunos` is rejected, although it only reads |
| Actions.RejectsColumnNamedCreatedAt | app/actions.ts:77 | `SELECT created_at FROM alunos` is rejected, because `create` occurs inside the column name |
| Actions.MissingLetterExcludes | app/actions.ts:71-79 | a text that lacks one of a word's letters does not contain that word, so the substring test cannot fire |
| Actions.TwoStatementsNormalized | app/actions.ts:70 | trimming and lower-casing `SELECT 1; SELECT 2` gives `select 1; select 2` |
| Actions.AcceptsTwoStatements | app/actions.ts:69-82 | `SELECT 1; SELECT 2`, two statements in one string, passes the gate |
| Actions.VerdictIgnoresCase | app/actions.ts:70-79 | two queries that agree once lower-cased get the same verdict |
| Actions.VerdictIgnoresPadding | app/actions.ts:70-79 | leading and trailing whitespace do not change the verdict |
| Actions.NoForbiddenWordAcrossSeparator | app/actions.ts:71-79 | joining two texts free of forbidden words with `;` creates no forbidden word |
| Actions.SeparatorNotChecked | app/actions.ts:69-82 | two accepted queries, normalised and joined by `;`, form an accepted query: nothing checks for a second statement |
| Actions.StoreErrorMessage | app/actions.ts:87-96 | a store error that mentions the missing `alunos` relation becomes "Table does not exist", and every other error keeps its own message |
| Actions.RunGenerateSqlQuery | app/actions.ts:66-100 | rows come back exactly when the gate accepts and the store answers; a rejected query fails with "Only SELECT queries are allowed"; store errors are mapped as above |
| Actions.RejectedQueryNeverReachesStore | app/actions.ts:69-86 | the outcome for a rejected query does not depend on the store at all |
| Actions.OnlyVerbatimQueryIsSent | app/actions.ts:86 | only the store's answer to the query text exactly as given matters: no trimmed or lower-cased copy is sent |
| Actions.ReportFailureAs | app/actions.ts:60-63 | a generator failure is replaced by a fixed message, and a success is passed through unchanged |
| Actions.GenerationErrorIsHidden | app/actions.ts:60-63 | the message the caller sees does not depend on the generator's own error |
| Actions.GenerateQuery | app/actions.ts:9-64 | the SQL text the model produced, or "Failed to generate query" |
| Actions.ExplainQuery | app/actions.ts:102-147 | the model's explanation, or the same "Failed to generate query" message |
| Decimal.Show | app/actions.ts:186 | `${n}` for a natural number is a non-empty run of digits without a leading zero |
| Decimal.ParseShow | app/actions.ts:186 | reading the rendered numeral gives back the number |
| Decimal.ShowInjective | app/actions.ts:186 | distinct numbers render as distinct numerals |
| Actions.PaletteColor | app/actions.ts:186 | the colour token of the series at position `i`: `hsl(var(--chart-{i+1}))`, with `i + 1` written in decimal |
| Actions.PaletteColorInjective | app/actions.ts:186 | distinct positions get distinct `hsl(var(--chart-N))` tokens |
| Actions.AssignColors | app/actions.ts:184-187 | the colours `yKeys.forEach` writes into a plain object: position `i` assigns `hsl(var(--chart-{i+1}))` to its key, later positions overwrite earlier ones, and a `__proto__` key stores nothing |
| Actions.AssignColorsKeys | app/actions.ts:184-187 | the colour map covers exactly the series keys other than `__proto__`, which a plain object does not store |
| Actions.AssignColorsLastWins | app/actions.ts:184-187 | a key listed more than once keeps the colour of its last position |
| Actions.DistinctKeysColourCount | app/actions.ts:184-187 | with distinct series keys there is exactly one colour per series, one fewer when a series is named `__proto__` |
| Actions.DistinctKeysGetDistinctColors | app/actions.ts:184-187 | with distinct series keys, series `i` gets `hsl(var(--chart-{i+1}))` unless it is named `__proto__`, and no two coloured series share a colour |
| Actions.WithPalette | app/actions.ts:189 | `{ ...config, colors }`: the generated configuration with its colours replaced by the palette colours |
| Actions.WithPaletteReplacesOnlyColors | app/actions.ts:189 | `{ ...config, colors }` changes the colours and nothing else; the new colours cover the series keys other than `__proto__` with palette tokens |
| Actions.PaletteOverridesGeneratedColors | app/actions.ts:184-189 | the colours the model proposed never reach the caller |
| Actions.WithPaletteIdempotent | app/actions.ts:184-189 | applying the palette twice is applying it once |
| Actions.GenerateChartConfig | app/actions.ts:149-196 | the model's configuration with palette colours, or "Failed to generate chart suggestion" |
| Suggestions.UniqueQueries | lib/create-suggestions-table.ts:10 | the `UNIQUE` constraint on `query`: no two rows hold the same question |
| Suggestions.NewestFirst | app/api/suggestions/route.ts:7 | `ORDER BY created_at DESC` returns the same rows, each as often as stored, newest first |
| Suggestions.Texts | app/api/suggestions/route.ts:10 | `rows.map(row => row.query)` keeps the order and takes each row's question |
| Suggestions.Get | app/api/suggestions/route.ts:4-15 | status 200 with a list holding exactly the saved questions, or status 500 with "Erro ao buscar sugestões" when the database fails |
| Suggestions.GetListsNewestFirst | app/api/suggestions/route.ts:6-10 | the listed questions are those of a newest-first ordering of the rows |
| Suggestions.Insert | app/api/suggestions/route.ts:25-29 | `INSERT … ON CONFLICT (query) DO NOTHING`: a row with the question and the database's clock, unless the question is already saved |
| Suggestions.ValidPostQuery | app/api/suggestions/route.ts:21 | POST's check: the `query` field is a string that is neither empty nor only whitespace; anything else gets 400 |
| Suggestions.Post | app/api/suggestions/route.ts:17-36 | malformed body gives 500; missing, non-string, empty or blank query gives 400 "Query inválida"; a database failure, taken to write nothing, gives 500; otherwise 200, and the question is saved unless it already was. Only the 200 case changes the table |
| Suggestions.PostIdempotent | app/api/suggestions/route.ts:25-29 | saving the same question twice leaves the table as saving it once, whatever the second timestamp |
| Suggestions.PostKeepsQueriesUnique | lib/create-suggestions-table.ts:10 | POST never puts the same question in the table twice |
| Suggestions.PostKeepsOnlyValidQueries | app/api/suggestions/route.ts:21-29 | only questions that pass POST's check are ever saved |
| Suggestions.PostAnswerTellsSaved | app/api/suggestions/route.ts:17-36 | for a question not saved yet, POST answers with success exactly when it is saved afterwards |
| Suggestions.BlankQueryOnlyDeletable | app/api/suggestions/route.ts:21-44 | a whitespace-only question is refused by POST and accepted by DELETE |
| Suggestions.Without | app/api/suggestions/route.ts:46-48 | the rows `DELETE … WHERE query = $1` leaves, in their order |
| Suggestions.Remove | app/api/suggestions/route.ts:46-48 | the table after `DELETE … WHERE query = $1` |
| Suggestions.WithoutCounts | app/api/suggestions/route.ts:46-48 | `DELETE … WHERE query = $1` drops every row with that question and keeps every other row as often as it was stored |
| Suggestions.WithoutMembers | app/api/suggestions/route.ts:47 | a row survives the delete exactly when it was there and holds another question |
| Suggestions.WithoutAbsent | app/api/suggestions/route.ts:47 | deleting a question that no row holds changes nothing |
| Suggestions.RemoveQueries | app/api/suggestions/route.ts:47 | after the delete, the saved questions are the former ones minus the deleted one |
| Suggestions.RemoveFacts | app/api/suggestions/route.ts:46-48 | the delete removes that question, keeps every other row, and leaves a table without that question as it was |
| Suggestions.ValidDeleteQuery | app/api/suggestions/route.ts:42 | DELETE's check: the `query` field is a non-empty string, even a blank one; anything else gets 400 |
| Suggestions.Delete | app/api/suggestions/route.ts:38-55 | malformed body gives 500; missing, non-string or empty query gives 400 "Query inválida"; a database failure, taken to write nothing, gives 500; otherwise 200, and the question is gone, even if it was never saved. Only the 200 case changes the table |
| Suggestions.DeleteKeepsQueriesUnique | lib/create-suggestions-table.ts:10 | DELETE keeps the table free of duplicate questions |
| Suggestions.DeleteKeepsOnlyValidQueries | app/api/suggestions/route.ts:38-55 | DELETE never brings in a question that POST would refuse |
| Suggestions.DeleteAnswerTellsSaved | app/api/suggestions/route.ts:38-55 | for a saved question, DELETE answers with success exactly when it is gone afterwards |
| Suggestions.DeleteUndoesPost | app/api/suggestions/route.ts:17-55 | deleting a question that a successful POST has just added restores the table |
| QueryViewer.Preview | components/query-viewer.tsx:166-169 | the collapsed text is the query when it fits in 100 characters, and otherwise its first 100 characters followed by `...` |
| QueryViewer.PreviewKeepsPrefix | components/query-viewer.tsx:167 | the preview starts with as much of the query as fits |
| QueryViewer.PreviewIsQueryIff | components/query-viewer.tsx:167-168 | the preview is the query itself exactly when the query is short, or is 100 characters followed by `...` already |
| QueryViewer.Render | components/query-viewer.tsx:99-193 | nothing for an empty query; the preview when collapsed; the query annotated with exactly the stored explanations once some exist; the plain query otherwise, with the explain button enabled exactly when no explanation is loading. The star is filled for a favourite and disabled while toggling |
| QueryViewer.Pressable | components/query-viewer.tsx:121-193 | the buttons the rendering offers: nothing for an empty query; otherwise the star unless a toggle is in flight, the explain button only in the expanded view without explanations and only while no explanation is loading, and the "Show full query" overlay only while collapsed |
| QueryViewer.Mount | components/query-viewer.tsx:18-24 | a freshly mounted viewer holds the given `activeQuery` and `inputValue`, is expanded exactly when the query is longer than 100 characters, and starts not favourite, not toggling, with no explanation |
| QueryViewer.QueryBody | components/query-viewer.tsx:65-81 | the body both star requests send, `{ query: inputValue }` |
| QueryViewer.Serve | components/query-viewer.tsx:30-82 | each request reaches its route handler: the list request is answered by GET and leaves the table as it was; an addition (POST) never removes a saved question; a removal (DELETE) never adds one |
| QueryViewer.MountRequest | components/query-viewer.tsx:27-43 | the favourite check is requested exactly when the question is non-empty |
| QueryViewer.Sends | components/query-viewer.tsx:27-90 | pressing the star of a shown query with no toggle in flight sends DELETE for a favourite and POST otherwise, each with the question as body, and the star sends nothing else; a new non-empty question triggers a list request, and nothing else does |
| QueryViewer.Step | components/query-viewer.tsx:45-193 | "Show full query" and the explain button expand the viewer, and the explain button starts the spinner; the star starts a removal for a favourite and an addition otherwise; a prop change installs the new props; a successful explanation is stored and stops the spinner; every toggle answer ends the toggle. No event collapses the viewer; only a prop change changes the props; only a favourite check or a successful toggle changes the star; only a successful explanation stops the spinner |
| QueryViewer.ExpandedStaysExpanded | components/query-viewer.tsx:184-192 | once expanded, the viewer stays expanded whatever happens next |
| QueryViewer.RunKeepsCollapsedOnlyWhenShort | components/query-viewer.tsx:22 | while the props stay the same, a collapsed viewer always holds a query of at most 100 characters |
| QueryViewer.CollapsedPreviewIsWholeQuery | components/query-viewer.tsx:164-169 | for the query the viewer was mounted with, a collapsed display shows the whole query, never `...` |
| QueryViewer.LongerPropsAreCutOff | components/query-viewer.tsx:22 | a longer `activeQuery` arriving as a new prop is shown cut off at 100 characters with `...` |
| QueryViewer.StarIgnoredWhileToggling | components/query-viewer.tsx:54 | while a toggle is in flight, pressing the star changes nothing and sends nothing |
| QueryViewer.ToggleAnswerEndsToggle | components/query-viewer.tsx:94-96 | every toggle answer ends the toggle, and a failed one leaves the star as it was |
| QueryViewer.StarRemovesSaved | components/query-viewer.tsx:58-73 | un-starring a saved question leaves the star filled exactly when the question is still saved |
| QueryViewer.StarSavesUnsaved | components/query-viewer.tsx:74-89 | starring an unsaved question leaves the star filled exactly when the question is now saved |
| QueryViewer.StarFollowsStore | components/query-viewer.tsx:53-97 | if the star showed whether the question was saved before a press, it does so after the API's answer, also when the API refuses the request or fails without writing, provided the viewer receives the answer the handler sent |
| QueryViewer.FavoriteCheckAgreesWithStore | components/query-viewer.tsx:27-43 | the favourite check fills the star exactly when the question is saved, and a failed check leaves the viewer as it was |
| QueryViewer.ExplainFailureKeepsSpinner | components/query-viewer.tsx:45-51 | a failed explanation leaves the spinner running and the explain button disabled |
| QueryViewer.ExplainShowsAnnotations | components/query-viewer.tsx:45-51 | asking for an explanation that comes back non-empty ends with the annotated query on screen |

## Left out

- The prompts, schemas and model calls of `generateObject` are not modelled. Each model-backed action takes the model as a function parameter that returns a value or the error it threw.
- Postgres is not modelled. `sql.query` is a parameter from statement text to rows or an error message. For the favourites table, a database failure is the flag `dbFails`.
- Suggestions.Post: assumes a failed `INSERT` wrote nothing. An `INSERT` that commits and then throws, for example when the acknowledgement is lost, answers 500 with the question saved. That path is not modelled.
- Suggestions.Delete: assumes a failed `DELETE` removed nothing. A `DELETE` that commits and then throws answers 500 with the question gone. That path is not modelled.
- QueryViewer.StarFollowsStore: assumes every database failure writes nothing, and that the viewer receives the answer the handler sent. A commit followed by a 500 breaks the first assumption. A `fetch` that rejects after the handler succeeded breaks the second: the `catch` at query-viewer.tsx:91-93 keeps the old star. In both cases the star stops matching the table. Lost answers are not modelled.
- The cast of store rows to the `Result` type (`data.rows as Result[]`) is not modelled: rows are passed through as the store returned them.
- Actions.StoreErrorMessage: assumes every thrown store error carries a string `message`. A thrown value without one would make the `includes` call itself throw, and that path is not modelled.
- Text.Lower: lower-cases only `A`–`Z` and the Kelvin sign U+212A (to `k`) and leaves every other code point as it is. This is weaker than `toLowerCase`, which lower-cases all of Unicode, sometimes into several code points. The Kelvin sign is the only code point outside ASCII whose lower case is a single ASCII letter. The only code point whose `toLowerCase` expands into several code points is U+0130, which becomes `i` followed by U+0307. That `i` cannot complete a match either: `i` appears only in `insert`, where `n` follows it, never U+0307. So the gate's verdict on `select` and the nine ASCII words depends only on the part of the mapping the model has.
- Text.LowerAppend: holds for the model's code-point-by-code-point mapping, not for `toLowerCase` itself. `toLowerCase` is context-sensitive: a capital sigma becomes a final sigma at the end of a word. So lower-casing a concatenation can differ from concatenating the lower-cased parts.
- QueryViewer.Preview: counts Unicode code points. JavaScript's `length` and `slice` count UTF-16 code units, so for text outside the Basic Multilingual Plane the cut falls at a different place.
- QueryViewer.Mount, QueryViewer.RunKeepsCollapsedOnlyWhenShort, QueryViewer.CollapsedPreviewIsWholeQuery, QueryViewer.LongerPropsAreCutOff: compare the query's length with 100 in code points. `activeQuery.length` counts UTF-16 code units, so the same query can count as short here and as long in the browser.
- Strings are sequences of Unicode scalar values. A JavaScript string can also hold lone surrogates, and a Dafny `string` cannot. Such strings are not modelled.
- Suggestions.NewestFirst: rows with equal `created_at` come out in one fixed order. Postgres leaves their order open.
- `created_at DEFAULT CURRENT_TIMESTAMP` is the parameter `now`. Nothing forces later rows to carry later timestamps.
- The rest of lib/create-suggestions-table.ts (creating the table, seeding eight default questions) is a one-off script and is not modelled. Only its `UNIQUE` constraint on `query` is: it is the invariant the POST and DELETE lemmas preserve.
- lib/types.ts is not part of this model:
  - `Config` carries only the fields the actions touch;
  - `configSchema` validation is the model oracle's concern;
  - the explanation type is a type parameter of the viewer.
- components/suggested-queries.tsx is not part of this model.
- The viewer's toasts and console logging are not modelled.
- The `console.error` and `console.log` calls of the server actions (app/actions.ts:61, 89, 144, 193) are not modelled.
- Actions.GenerateChartConfig: returns the configuration itself. `generateChartConfig` wraps it as `{ config: updatedConfig }`; the wrapper carries nothing else.
- Request headers (JSON `Content-Type`) are not modelled.
- The JSON shapes of the responses (`{ suggestions }`, `{ success: true }`, `{ error }`) are represented by the `Payload` variants.
- React scheduling is not modelled: each event's state update is applied before the next event. For example, the model does not cover two clicks delivered before a re-render, or a stale closure seeing an old `isFavorite`. A response carries the question it was asked for (`FavoriteChecked.forInput`), as the effect's closure does.
- QueryViewer.Step: a rejected `explainQuery` is not caught by the viewer. The model keeps the spinner on and changes nothing else; the unhandled rejection itself is not modelled.

=== FILE: actions.dfy ===
/** The server actions of the application: translating a question into SQL,
    gating and running that SQL against the `alunos` table, explaining it, and
    post-processing the chart configuration. The language model and the
    Postgres store are oracles passed in as functions; each returns a value or
    the message of the error it threw. */
module Actions {
  import opened Wrappers
  import opened Text
  import Decimal

  // ---------------------------------------------------------------------
  // The read-only gate of runGenerateSQLQuery

  const OnlySelectMessage := "Only SELECT queries are allowed"

  /** The nine words the gate looks for, in the order it tests them. */
  const ForbiddenWords: seq<string> :=
    ["drop", "delete", "insert", "update", "alter", "truncate", "create", "grant", "revoke"]

  /** The view of the query the gate inspects: `query.trim().toLowerCase()`. */
  function Normalize(query: string): string {
    Lower(Trim(query))
  }

  /** The condition under which runGenerateSQLQuery throws before it reaches
      the store: the normalised query does not start with `select`, or one of
      the nine forbidden words occurs in it as a plain substring. Nothing else
      (a `;`, a second statement, a comment) is looked at. */
  predicate Rejects(query: string) {
    var n := Normalize(query);
    || !StartsWith(n, "select")
    || exists k | 0 <= k < |ForbiddenWords| :: Includes(n, ForbiddenWords[k])
  }

  /** Every forbidden word is a non-empty run of lower-case ASCII letters. */
  lemma ForbiddenWordIsLetters(k: nat)
    requires k < |ForbiddenWords|
    ensures |ForbiddenWords[k]| > 0
    ensures forall c :: c in ForbiddenWords[k] ==> 'a' <= c <= 'z'
  {
  }

  /** `w`, written in any letter case, occurs in `query` at index `i`. */
  predicate OccursAnyCaseAt(query: string, w: string, i: int) {
    0 <= i && i + |w| <= |query| && Lower(query[i..i + |w|]) == w
  }

  /** Right after its leading whitespace and line terminators, the query
      spells `select` in any letter case. */
  predicate BeginsWithSelect(query: string) {
    OccursAnyCaseAt(query, "select", TrimOffset(query))
  }

  /** A query that does not begin with `select` in some letter case, once its
      leading whitespace is skipped, is rejected whatever else it holds. */
  lemma RejectsNonSelect(query: string)
    requires !BeginsWithSelect(query)
    ensures Rejects(query)
  {
    SelectPrefixRaw(query);
  }

  /** A query passes exactly when, after its leading whitespace, it begins
      with `select` in some letter case, and none of the nine words occurs
      anywhere in it in any letter case. */
  lemma AcceptsExactly(query: string)
    ensures !Rejects(query) <==>
      && BeginsWithSelect(query)
      && forall k, i :: 0 <= k < |ForbiddenWords| ==> !OccursAnyCaseAt(query, ForbiddenWords[k], i)
  {
    SelectPrefixRaw(query);
    forall k | 0 <= k < |ForbiddenWords|
      ensures Includes(Normalize(query), ForbiddenWords[k]) <==> exists i :: OccursAnyCaseAt(query, ForbiddenWords[k], i)
    {
      ForbiddenWordIsLetters(k);
      var w := ForbiddenWords[k];
      if Includes(Normalize(query), w) {
        var i := NormalizedOccurrenceFromRaw(query, w);
      }
      if exists i :: OccursAnyCaseAt(query, w, i) {
        var i :| OccursAnyCaseAt(query, w, i);
        WordSurvivesNormalize(query, w, i);
      }
    }
  }

  /** The normalised query starts with `select` exactly when the raw query
      spells `select`, in any case, right after its leading padding. */
  lemma SelectPrefixRaw(query: string)
    ensures StartsWith(Normalize(query), "select") <==> BeginsWithSelect(query)
  {
    var t, o := Trim(query), TrimOffset(query);
    assert t == query[o..o + |t|];
    if StartsWith(Normalize(query), "select") {
      LowerSlice(t, 0, 6);
      SliceOfSlice(query, o, o + |t|, 0, 6);
    }
    if BeginsWithSelect(query) {
      var v := query[o..o + 6];
      assert LowerChar(query[o + 5]) == Lower(v)[5] == 't';
      LetterIsNotPadding(query[o + 5]);
      PaddingBounds(query, t, o, o + 5);
      LowerSlice(t, 0, 6);
      SliceOfSlice(query, o, o + |t|, 0, 6);
    }
  }

  /** Every occurrence of a word in the normalised query comes from a
      stretch of the raw query that lower-cases to that word. */
  lemma NormalizedOccurrenceFromRaw(query: string, w: string) returns (i: nat)
    requires Includes(Normalize(query), w)
    ensures OccursAnyCaseAt(query, w, i)
  {
    var o, len := TrimOffset(query), |Trim(query)|;
    TrimIsWindow(query);
    var n := Lower(query[o..o + len]);
    assert n == Normalize(query);
    var j :| 0 <= j <= |n| - |w| && OccursAt(n, w, j);
    WindowOfLowerWindow(query, o, len, w, j);
    i := o + j;
  }

  lemma WindowOfLowerWindow(s: string, o: nat, len: nat, w: string, j: int)
    requires o + len <= |s| && OccursAt(Lower(s[o..o + len]), w, j)
    ensures OccursAnyCaseAt(s, w, o + j)
  {
    LowerOfWindow(s, o, len, j, |w|);
  }

  /** The trimmed query is the window of the query that starts at its
      trim offset. */
  lemma TrimIsWindow(query: string)
    ensures TrimOffset(query) + |Trim(query)| <= |query|
    ensures Trim(query) == query[TrimOffset(query)..TrimOffset(query) + |Trim(query)|]
  {
  }

  lemma LowerOfWindow(s: string, o: int, len: int, j: int, m: int)
    requires 0 <= o && o + len <= |s| && 0 <= j && j + m <= len && 0 <= m
    ensures Lower(s[o..o + len])[j..j + m] == Lower(s[o + j..o + j + m])
  {
    LowerSlice(s[o..o + len], j, j + m);
    SliceOfSlice(s, o, o + len, j, j + m);
  }

  /** A character that lower-cases to a letter is not padding. */
  lemma LetterIsNotPadding(c: char)
    requires 'a' <= LowerChar(c) <= 'z'
    ensures !IsTrimmable(c)
  {
    LowerKeepsTrimmable(c);
  }

  /** An occurrence of an unpadded word in `query` lies inside `Trim(query)`. */
  lemma OccurrenceSurvivesTrim(query: string, w: string, i: nat) returns (j: nat)
    requires |w| > 0 && i + |w| <= |query|
    requires !IsTrimmable(query[i]) && !IsTrimmable(query[i + |w| - 1])
    ensures j <= i && i + |w| <= j + |Trim(query)|
    ensures Trim(query)[i - j..i - j + |w|] == query[i..i + |w|]
  {
    var t := Trim(query);
    j := TrimOffset(query);
    PaddingBounds(query, t, j, i);
    PaddingBounds(query, t, j, i + |w| - 1);
    assert t == query[j..j + |t|];
    SliceOfSlice(query, j, j + |t|, i - j, i - j + |w|);
  }

  /** A character that is not padding lies inside the trimmed part. */
  lemma PaddingBounds(s: string, t: string, j: int, k: int)
    requires Pads(s, t, j) && 0 <= k < |s| && !IsTrimmable(s[k])
    ensures j <= k < j + |t|
  {
  }

  lemma SliceOfSlice(s: string, lo: int, hi: int, a: int, b: int)
    requires 0 <= lo <= hi <= |s| && 0 <= a <= b <= hi - lo
    ensures s[lo..hi][a..b] == s[lo + a..lo + b]
  {
    assert forall k :: 0 <= k < b - a ==> s[lo..hi][a..b][k] == s[lo + a + k];
  }

  /** A run of letters written in any letter case anywhere in the query is
      still there, lower-cased, in the normalised query. */
  lemma WordSurvivesNormalize(query: string, w: string, i: nat)
    requires |w| > 0 && forall c :: c in w ==> 'a' <= c <= 'z'
    requires i + |w| <= |query| && Lower(query[i..i + |w|]) == w
    ensures Includes(Normalize(query), w)
  {
    var v := query[i..i + |w|];
    assert LowerChar(query[i]) == Lower(v)[0] == w[0];
    assert LowerChar(query[i + |w| - 1]) == Lower(v)[|w| - 1] == w[|w| - 1];
    assert w[0] in w && w[|w| - 1] in w;
    LetterIsNotPadding(query[i]);
    LetterIsNotPadding(query[i + |w| - 1]);
    var j := OccurrenceSurvivesTrim(query, w, i);
    var t := Trim(query);
    LowerSlice(t, i - j, i - j + |w|);
    assert Lower(t)[i - j..i - j + |w|] == Lower(v);
    assert OccursAt(Normalize(query), w, i - j);
  }

  /** A forbidden word written in any letter case anywhere in the query, even
      inside a longer identifier such as `update_date` or `created_at`,
      rejects the query. */
  lemma RejectsForbiddenWordAnywhere(query: string, k: nat, i: nat)
    requires k < |ForbiddenWords|
    requires i + |ForbiddenWords[k]| <= |query|
    requires Lower(query[i..i + |ForbiddenWords[k]|]) == ForbiddenWords[k]
    ensures Rejects(query)
  {
    ForbiddenWordIsLetters(k);
    WordSurvivesNormalize(query, ForbiddenWords[k], i);
  }

  /** The gate ignores the case of letters: two queries that agree once
      lower-cased get the same verdict. */
  lemma VerdictIgnoresCase(a: string, b: string)
    requires Lower(a) == Lower(b)
    ensures Rejects(a) <==> Rejects(b)
  {
    TrimLowerCommute(a);
    TrimLowerCommute(b);
    assert Normalize(a) == Normalize(b);
  }

  /** The gate ignores leading and trailing whitespace and line terminators. */
  lemma VerdictIgnoresPadding(pre: string, query: string, post: string)
    requires AllTrimmable(pre) && AllTrimmable(post)
    ensures Rejects(pre + query + post) <==> Rejects(query)
  {
    TrimIgnoresPadding(pre, query, post);
    assert Normalize(pre + query + post) == Normalize(query);
  }

  /** An occurrence of a word in `x + [c] + y` lies wholly in `x`, wholly in
      `y`, or covers the `c`. */
  lemma OccurrenceAroundSeparator(x: string, c: char, y: string, w: string, i: int)
    requires OccursAt(x + [c] + y, w, i)
    ensures OccursAt(x, w, i) || OccursAt(y, w, i - |x| - 1) || c in w
  {
    var s := x + [c] + y;
    if i + |w| <= |x| {
      assert s[i..i + |w|] == x[i..i + |w|];
    } else if i > |x| {
      assert s[i..i + |w|] == y[i - |x| - 1..i - |x| - 1 + |w|];
    } else {
      assert w[|x| - i] == s[|x|] == c;
    }
  }

  /** A string that is already lower-cased and has nothing to trim is its own
      normal form. */
  lemma NormalFormIsFixed(q: string)
    requires Lower(q) == q && Unpadded(q)
    ensures Normalize(q) == q
  {
    assert Pads(q, q, 0);
    TrimCharacterized(q, q, 0);
  }

  /** Gluing two strings that contain no forbidden word with `;` creates none. */
  lemma NoForbiddenWordAcrossSeparator(x: string, y: string)
    requires forall k :: 0 <= k < |ForbiddenWords| ==> !Includes(x, ForbiddenWords[k])
    requires forall k :: 0 <= k < |ForbiddenWords| ==> !Includes(y, ForbiddenWords[k])
    ensures forall k :: 0 <= k < |ForbiddenWords| ==> !Includes(x + ";" + y, ForbiddenWords[k])
  {
    forall k, i | 0 <= k < |ForbiddenWords| && OccursAt(x + ";" + y, ForbiddenWords[k], i)
      ensures OccursAt(x, ForbiddenWords[k], i) || OccursAt(y, ForbiddenWords[k], i - |x| - 1)
    {
      ForbiddenWordIsLetters(k);
      OccurrenceAroundSeparator(x, ';', y, ForbiddenWords[k], i);
    }
  }

  /** Two accepted queries, normalised and joined by `;`, form an accepted
      query: the gate has no check for statement separators, so
      `select 1;select 2` passes. */
  lemma SeparatorNotChecked(a: string, b: string)
    requires !Rejects(a) && !Rejects(b)
    ensures !Rejects(Normalize(a) + ";" + Normalize(b))
  {
    var na, nb := Normalize(a), Normalize(b);
    var q := na + ";" + nb;
    UnpaddedLower(Trim(a));
    UnpaddedLower(Trim(b));
    assert q[0] == na[0];
    assert q[|q| - 1] == nb[|nb| - 1];
    LowerIdempotent(Trim(a));
    LowerIdempotent(Trim(b));
    LowerAppend(na, ";");
    LowerAppend(na + ";", nb);
    assert Lower(";") == ";";
    NormalFormIsFixed(q);
    assert q[..6] == na[..6];
    NoForbiddenWordAcrossSeparator(na, nb);
  }

  /** A forbidden word, in upper or lower case, placed anywhere between any
      text rejects the query. */
  lemma RejectsEmbeddedWord(pre: string, word: string, post: string, k: nat)
    requires k < |ForbiddenWords| && Lower(word) == ForbiddenWords[k]
    ensures Rejects(pre + word + post)
  {
    var q := pre + word + post;
    assert q[|pre|..|pre| + |word|] == word;
    RejectsForbiddenWordAnywhere(q, k, |pre|);
  }

  /** `SELECT * FROM alunos; DROP TABLE alunos;` is rejected, because of the
      word `drop` after the separator. */
  lemma RejectsInjectedDrop()
    ensures Rejects("SELECT * FROM alunos; " + "DROP" + " TABLE alunos;")
  {
    assert Lower("DROP") == "drop";
    RejectsEmbeddedWord("SELECT * FROM alunos; ", "DROP", " TABLE alunos;", 0);
  }

  /** A harmless column name that contains a forbidden word rejects the query. */
  lemma RejectsColumnNamedUpdateDate()
    ensures Rejects("SELECT " + "update" + "_date FROM alunos")
  {
    assert Lower("update") == "update";
    RejectsEmbeddedWord("SELECT ", "update", "_date FROM alunos", 3);
  }

  /** `SELECT created_at FROM alunos` is rejected: `created` contains
      `create`. */
  lemma RejectsColumnNamedCreatedAt()
    ensures Rejects("SELECT " + "create" + "d_at FROM alunos")
  {
    assert Lower("create") == "create";
    RejectsEmbeddedWord("SELECT ", "create", "d_at FROM alunos", 6);
  }

  /** `c` occurs nowhere in `s`. The same as `c !in s`, but stated by index
      so that the proofs about concrete strings below stay cheap for the
      solver; for the same reason, those proofs are split three words at a
      time over the literal normal form. */
  predicate Lacks(s: string, c: char) {
    forall k :: 0 <= k < |s| ==> s[k] != c
  }

  /** A word holding a letter that `s` lacks does not occur in `s`. */
  lemma MissingLetterExcludes(s: string, w: string, c: char)
    requires c in w && Lacks(s, c)
    ensures !Includes(s, w)
  {
    var k :| 0 <= k < |w| && w[k] == c;
    forall i | 0 <= i <= |s| - |w|
      ensures !OccursAt(s, w, i)
    {
      assert s[i..i + |w|][k] == s[i + k];
    }
  }

  const TwoStatements := "SELECT 1; SELECT 2"

  lemma TwoStatementsNormalized()
    ensures Normalize(TwoStatements) == "select 1; select 2"
  {
    var q := TwoStatements;
    assert Pads(q, q, 0);
    TrimCharacterized(q, q, 0);
    assert Lower(q) == "select 1; select 2";
  }

  lemma TwoStatementsLackDropDeleteInsert(n: string)
    requires n == "select 1; select 2"
    ensures forall k :: 0 <= k < 3 ==> !Includes(n, ForbiddenWords[k])
  {
    assert Lacks(n, 'd') && Lacks(n, 'i');
    MissingLetterExcludes(n, ForbiddenWords[0], 'd');
    MissingLetterExcludes(n, ForbiddenWords[1], 'd');
    MissingLetterExcludes(n, ForbiddenWords[2], 'i');
  }

  lemma TwoStatementsLackUpdateAlterTruncate(n: string)
    requires n == "select 1; select 2"
    ensures forall k :: 3 <= k < 6 ==> !Includes(n, ForbiddenWords[k])
  {
    assert Lacks(n, 'u') && Lacks(n, 'a') && Lacks(n, 'r');
    MissingLetterExcludes(n, ForbiddenWords[3], 'u');
    MissingLetterExcludes(n, ForbiddenWords[4], 'a');
    MissingLetterExcludes(n, ForbiddenWords[5], 'r');
  }

  lemma TwoStatementsLackCreateGrantRevoke(n: string)
    requires n == "select 1; select 2"
    ensures forall k :: 6 <= k < 9 ==> !Includes(n, ForbiddenWords[k])
  {
    assert Lacks(n, 'r') && Lacks(n, 'g');
    MissingLetterExcludes(n, ForbiddenWords[6], 'r');
    MissingLetterExcludes(n, ForbiddenWords[7], 'g');
    MissingLetterExcludes(n, ForbiddenWords[8], 'r');
  }

  /** `SELECT 1; SELECT 2` passes the gate: it starts with `select`, and each
      forbidden word contains a letter (`d`, `i`, `u`, `a`, `r` or `g`) that
      the query lacks. */
  lemma AcceptsTwoStatements()
    ensures !Rejects(TwoStatements)
  {
    var n := "select 1; select 2";
    TwoStatementsNormalized();
    TwoStatementsLackDropDeleteInsert(n);
    TwoStatementsLackUpdateAlterTruncate(n);
    TwoStatementsLackCreateGrantRevoke(n);
    assert StartsWith(n, "select");
  }

  // ---------------------------------------------------------------------
  // Running the gated query against the store

  /** One value of a result row; the store's own type coercion is not
      modelled. */
  datatype Cell = StringCell(s: string) | NumberCell(n: real) | BoolCell(b: bool) | NullCell

  type Row = map<string, Cell>

  /** What `sql.query` does with a statement: resolve with rows, or throw an
      error carrying a message. */
  datatype StoreReply = Rows(rows: seq<Row>) | StoreError(message: string)

  const MissingTableMarker := "relation \"alunos\" does not exist"
  const TableMissingMessage := "Table does not exist"

  /** The message runGenerateSQLQuery throws for a store error: a missing
      `alunos` relation is reported as a missing table, every other error is
      passed on as it is. */
  function StoreErrorMessage(message: string): (r: string)
    ensures r == TableMissingMessage || r == message
    ensures r != message ==> Includes(message, MissingTableMarker)
    ensures Includes(message, MissingTableMarker) ==> r == TableMissingMessage
  {
    if Includes(message, MissingTableMarker) then TableMissingMessage else message
  }

  /** runGenerateSQLQuery: rows only for a query that passed the gate and that
      the store answered; the store receives the query exactly as it was
      given, untrimmed and in its original case. */
  function RunGenerateSqlQuery(query: string, db: string -> StoreReply): (r: Result<seq<Row>, string>)
    ensures Rejects(query) ==> r == Failure(OnlySelectMessage)
    ensures r.Success? <==> !Rejects(query) && db(query).Rows?
    ensures r.Success? ==> r.value == db(query).rows
    ensures !Rejects(query) && db(query).StoreError? ==> r.error == StoreErrorMessage(db(query).message)
  {
    if Rejects(query) then
      Failure(OnlySelectMessage)
    else
      match db(query)
      case Rows(rows) => Success(rows)
      case StoreError(message) => Failure(StoreErrorMessage(message))
  }

  /** A rejected query never reaches the store: its outcome is the same
      whatever the store would have answered. */
  lemma RejectedQueryNeverReachesStore(query: string, db1: string -> StoreReply, db2: string -> StoreReply)
    requires Rejects(query)
    ensures RunGenerateSqlQuery(query, db1) == RunGenerateSqlQuery(query, db2)
    ensures RunGenerateSqlQuery(query, db1).error == OnlySelectMessage
  {
  }

  /** Only the store's answer to the original query text matters. */
  lemma OnlyVerbatimQueryIsSent(query: string, db1: string -> StoreReply, db2: string -> StoreReply)
    requires db1(query) == db2(query)
    ensures RunGenerateSqlQuery(query, db1) == RunGenerateSqlQuery(query, db2)
  {
  }

  // ---------------------------------------------------------------------
  // Failures of the language model

  const QueryFailureMessage := "Failed to generate query"
  const ChartFailureMessage := "Failed to generate chart suggestion"

  /** The `catch` of each generating action: whatever the model's error was,
      the caller sees one fixed message. */
  function ReportFailureAs<T>(generated: Result<T, string>, message: string): (r: Result<T, string>)
    ensures r.Success? <==> generated.Success?
    ensures r.Success? ==> r.value == generated.value
    ensures r.Failure? ==> r.error == message
  {
    match generated
    case Success(v) => Success(v)
    case Failure(_) => Failure(message)
  }

  /** generateQuery: the model's SQL text, or "Failed to generate query". */
  function GenerateQuery(input: string, generate: string -> Result<string, string>): (r: Result<string, string>)
    ensures r.Success? <==> generate(input).Success?
    ensures r.Success? ==> r.value == generate(input).value
    ensures r.Failure? ==> r.error == QueryFailureMessage
  {
    ReportFailureAs(generate(input), QueryFailureMessage)
  }

  /** explainQuery: the model's explanation object, or the same
      "Failed to generate query" message that generateQuery uses. */
  function ExplainQuery<E>(input: string, sqlQuery: string, generate: (string, string) -> Result<E, string>): (r: Result<E, string>)
    ensures r.Success? <==> generate(input, sqlQuery).Success?
    ensures r.Success? ==> r.value == generate(input, sqlQuery).value
    ensures r.Failure? ==> r.error == QueryFailureMessage
  {
    ReportFailureAs(generate(input, sqlQuery), QueryFailureMessage)
  }

  /** The error the caller sees does not depend on the model's own error. */
  lemma GenerationErrorIsHidden<T>(g1: Result<T, string>, g2: Result<T, string>, message: string)
    requires g1.Failure? && g2.Failure?
    ensures ReportFailureAs(g1, message) == ReportFailureAs(g2, message)
  {
  }

  // ---------------------------------------------------------------------
  // Chart configuration

  datatype ChartType = Bar | Line | Area | Pie | Scatter

  /** The chart configuration: which column is the x axis, which columns are
      plotted as series, the colour of each series, and whether a legend is
      shown. */
  datatype Config = Config(kind: ChartType, xKey: string, yKeys: seq<string>, colors: map<string, string>, legend: bool)

  /** The palette token of the series at 0-based position `i`:
      `hsl(var(--chart-{i+1}))`. */
  function PaletteColor(i: nat): string {
    "hsl(var(--chart-" + Decimal.Show(i + 1) + "))"
  }

  lemma PaletteColorInjective(i: nat, j: nat)
    requires PaletteColor(i) == PaletteColor(j)
    ensures i == j
  {
    var prefix, suffix := "hsl(var(--chart-", "))";
    var a, b := Decimal.Show(i + 1), Decimal.Show(j + 1);
    var s := PaletteColor(i);
    assert s == prefix + a + suffix;
    assert PaletteColor(j) == prefix + b + suffix;
    assert |a| == |b|;
    assert a == s[|prefix|..|prefix| + |a|];
    assert b == s[|prefix|..|prefix| + |b|];
    Decimal.ShowInjective(i + 1, j + 1);
  }

  /** The key at position `i` does not occur again later in `keys`. */
  predicate LastAt(keys: seq<string>, i: int) {
    0 <= i < |keys| && forall j :: i < j < |keys| ==> keys[j] != keys[i]
  }

  /** The one key a plain object literal does not store on assignment:
      `colors["__proto__"] = …` calls the accessor inherited from
      `Object.prototype`, which ignores a string value. */
  const ProtoKey := "__proto__"

  /** The colours computed by `yKeys.forEach`: position `i` assigns
      `PaletteColor(i)` to its key, overwriting what an earlier position of
      the same key assigned; an assignment to `__proto__` stores nothing. */
  function AssignColors(yKeys: seq<string>): map<string, string> {
    if yKeys == [] then map[]
    else
      var n := |yKeys| - 1;
      var earlier := AssignColors(yKeys[..n]);
      if yKeys[n] == ProtoKey then earlier else earlier[yKeys[n] := PaletteColor(n)]
  }

  /** The keys coloured are exactly the series keys other than
      `__proto__`. */
  lemma {:induction false} AssignColorsKeys(yKeys: seq<string>, k: string)
    ensures k in AssignColors(yKeys) <==> k in yKeys && k != ProtoKey
  {
    if yKeys != [] {
      var n := |yKeys| - 1;
      AssignColorsKeys(yKeys[..n], k);
      assert yKeys == yKeys[..n] + [yKeys[n]];
    }
  }

  /** A key that occurs more than once takes the colour of its last
      position. */
  lemma {:induction false} AssignColorsLastWins(yKeys: seq<string>, i: int)
    requires LastAt(yKeys, i) && yKeys[i] != ProtoKey
    ensures yKeys[i] in AssignColors(yKeys) && AssignColors(yKeys)[yKeys[i]] == PaletteColor(i)
  {
    var n := |yKeys| - 1;
    if i < n {
      assert LastAt(yKeys[..n], i);
      AssignColorsLastWins(yKeys[..n], i);
    }
  }

  predicate Distinct(keys: seq<string>) {
    forall i, j :: 0 <= i < j < |keys| ==> keys[i] != keys[j]
  }

  lemma {:induction false} DistinctCardinality(keys: seq<string>)
    requires Distinct(keys)
    ensures |set k | k in keys| == |keys|
  {
    if keys != [] {
      var n := |keys| - 1;
      DistinctCardinality(keys[..n]);
      assert (set k | k in keys) == (set k | k in keys[..n]) + {keys[n]};
      assert keys[n] !in (set k | k in keys[..n]);
    }
  }

  /** With pairwise distinct series keys, there is exactly one colour per
      series, except for a series named `__proto__`, which gets none. */
  lemma DistinctKeysColourCount(yKeys: seq<string>)
    requires Distinct(yKeys)
    ensures |AssignColors(yKeys)| == if ProtoKey in yKeys then |yKeys| - 1 else |yKeys|
  {
    var keys := set k | k in yKeys;
    AssignColorsKeySet(yKeys, keys);
    DistinctCardinality(yKeys);
    CardinalityWithout(keys, ProtoKey);
  }

  lemma AssignColorsKeySet(yKeys: seq<string>, keys: set<string>)
    requires keys == set k | k in yKeys
    ensures AssignColors(yKeys).Keys == keys - {ProtoKey}
  {
    forall k
      ensures k in AssignColors(yKeys) <==> k in keys - {ProtoKey}
    {
      AssignColorsKeys(yKeys, k);
    }
  }

  lemma CardinalityWithout(keys: set<string>, x: string)
    ensures |keys - {x}| == if x in keys then |keys| - 1 else |keys|
  {
    if x in keys {
      assert keys == (keys - {x}) + {x};
    } else {
      assert keys - {x} == keys;
    }
  }

  /** With pairwise distinct series keys, the series at position i gets
      `hsl(var(--chart-{i+1}))` unless it is named `__proto__`, and no two
      coloured series share a colour. */
  lemma DistinctKeysGetDistinctColors(yKeys: seq<string>, i: int, j: int)
    requires Distinct(yKeys)
    requires 0 <= i < |yKeys| && 0 <= j < |yKeys| && i != j
    ensures yKeys[i] in AssignColors(yKeys) <==> yKeys[i] != ProtoKey
    ensures yKeys[i] != ProtoKey ==> AssignColors(yKeys)[yKeys[i]] == PaletteColor(i)
    ensures yKeys[j] in AssignColors(yKeys) <==> yKeys[j] != ProtoKey
    ensures yKeys[i] != ProtoKey && yKeys[j] != ProtoKey ==> AssignColors(yKeys)[yKeys[i]] != AssignColors(yKeys)[yKeys[j]]
  {
    AssignColorsKeys(yKeys, yKeys[i]);
    AssignColorsKeys(yKeys, yKeys[j]);
    if yKeys[i] != ProtoKey {
      AssignColorsLastWins(yKeys, i);
    }
    if yKeys[i] != ProtoKey && yKeys[j] != ProtoKey {
      AssignColorsLastWins(yKeys, j);
      if PaletteColor(i) == PaletteColor(j) {
        PaletteColorInjective(i, j);
      }
    }
  }

  /** `{ ...config, colors }`: the generated configuration with its colours
      replaced by the palette. */
  function WithPalette(config: Config): Config {
    config.(colors := AssignColors(config.yKeys))
  }

  /** Post-processing changes the colours and nothing else: the chart type,
      the x key, the series keys and the legend flag are the generator's, and
      the colours cover exactly the series keys other than `__proto__`, each
      with the palette token of its last position. */
  lemma WithPaletteReplacesOnlyColors(config: Config)
    ensures WithPalette(config).(colors := config.colors) == config
    ensures forall k :: k in WithPalette(config).colors <==> k in config.yKeys && k != ProtoKey
    ensures forall i :: LastAt(config.yKeys, i) && config.yKeys[i] != ProtoKey ==>
              WithPalette(config).colors[config.yKeys[i]] == PaletteColor(i)
  {
    forall k
      ensures k in WithPalette(config).colors <==> k in config.yKeys && k != ProtoKey
    {
      AssignColorsKeys(config.yKeys, k);
    }
    forall i | LastAt(config.yKeys, i) && config.yKeys[i] != ProtoKey
      ensures WithPalette(config).colors[config.yKeys[i]] == PaletteColor(i)
    {
      AssignColorsLastWins(config.yKeys, i);
    }
  }

  /** The colours the model proposed never reach the caller. */
  lemma PaletteOverridesGeneratedColors(c1: Config, c2: Config)
    requires c1.(colors := map[]) == c2.(colors := map[])
    ensures WithPalette(c1) == WithPalette(c2)
  {
    assert c1.yKeys == c2.yKeys;
  }

  lemma WithPaletteIdempotent(config: Config)
    ensures WithPalette(WithPalette(config)) == WithPalette(config)
  {
  }

  /** generateChartConfig: the model's configuration with palette colours, or
      "Failed to generate chart suggestion". The rows and the question only
      feed the model's prompt. */
  function GenerateChartConfig(results: seq<Row>, userQuery: string,
                               generate: (seq<Row>, string) -> Result<Config, string>): (r: Result<Config, string>)
    ensures r.Success? <==> generate(results, userQuery).Success?
    ensures r.Success? ==> r.value == WithPalette(generate(results, userQuery).value)
    ensures r.Failure? ==> r.error == ChartFailureMessage
  {
    match generate(results, userQuery)
    case Success(config) => Success(WithPalette(config))
    case Failure(_) => Failure(ChartFailureMessage)
  }
}

=== FILE: decimal.dfy ===
/** Decimal rendering of natural numbers, as a JavaScript template literal
    renders a non-negative integer (`${n}`), and its inverse. */
module Decimal {

  predicate IsDigit(c: char) {
    '0' <= c <= '9'
  }

  function DigitChar(d: nat): (c: char)
    requires d < 10
    ensures IsDigit(c) && c as int - '0' as int == d
  {
    ('0' as int + d) as char
  }

  /** The shortest decimal numeral of `n`: digits only, no leading zero. */
  function Show(n: nat): (r: string)
    ensures |r| >= 1
    ensures forall k :: 0 <= k < |r| ==> IsDigit(r[k])
    ensures |r| > 1 ==> r[0] != '0'
  {
    if n < 10 then [DigitChar(n)] else Show(n / 10) + [DigitChar(n % 10)]
  }

  /** The value of a numeral, most significant digit first. */
  function Parse(s: string): int {
    if s == [] then 0 else Parse(s[..|s| - 1]) * 10 + (s[|s| - 1] as int - '0' as int)
  }

  lemma {:induction false} ParseShow(n: nat)
    ensures Parse(Show(n)) == n
  {
    if n >= 10 {
      var prefix := Show(n / 10);
      var s := prefix + [DigitChar(n % 10)];
      assert s[..|s| - 1] == prefix;
      ParseShow(n / 10);
    }
  }

  /** Distinct numbers are rendered as distinct numerals. */
  lemma ShowInjective(m: nat, n: nat)
    requires Show(m) == Show(n)
    ensures m == n
  {
    ParseShow(m);
    ParseShow(n);
  }
}

=== FILE: query_viewer.dfy ===
/** The `QueryViewer` component: it shows the generated SQL (collapsed to a
    preview when long), asks the model to explain it, and keeps a star that
    mirrors whether the user's question is saved as a favourite.

    The component is a state machine. Its state is the props and the React
    state hooks. An event is a click on a button the current rendering
    offers, a change of props, or the answer to a request it sent earlier.
    The requests go to the favourites API of module `Suggestions`. Toasts and
    console logging are not modelled. */
module QueryViewer {
  import opened Wrappers
  import opened Text
  import Suggestions

  const ActiveQueryCutoff := 100
  const Ellipsis := "..."

  /** The toggle request in flight, if any (`isToggling`, together with the
      value of `isFavorite` the click saw). */
  datatype Toggle = Idle | Removing | Adding

  /** Props (`activeQuery`, `inputValue`) and state hooks. `explanations` is
      `None` until an explanation has arrived (`useState()` starts
      `undefined`). */
  datatype Viewer<X> = Viewer(
    activeQuery: string,
    inputValue: string,
    explanations: Option<seq<X>>,
    loadingExplanation: bool,
    expanded: bool,
    isFavorite: bool,
    toggling: Toggle)

  datatype Button = StarButton | ExplainButton | ShowFullButton

  /** A request to `/api/suggestions`. Each body is `{ query: inputValue }`. */
  datatype Request = ListSuggestions | SaveSuggestion(body: Suggestions.Body) | RemoveSuggestion(body: Suggestions.Body)

  datatype Event<X> =
    | Click(button: Button)
    | PropsChanged(activeQuery: string, inputValue: string)
    | FavoriteChecked(forInput: string, response: Suggestions.Response)
    | ExplanationArrived(result: Result<seq<X>, string>)
    | ToggleAnswered(response: Suggestions.Response)

  /** The star: filled when favourite, disabled while a toggle is in flight. */
  datatype Star = Star(filled: bool, enabled: bool)

  /** What the component draws. `Collapsed` is the muted preview with the
      "Show full query" overlay; `Plain` is the whole query with the explain
      button; `Annotated` is the query with its explanations as tooltips. */
  datatype Display<X> =
    | Nothing
    | Collapsed(preview: string, star: Star)
    | Plain(query: string, star: Star, explainEnabled: bool)
    | Annotated(query: string, explanations: seq<X>, star: Star)

  // ---------------------------------------------------------------------
  // Rendering

  /** The collapsed text: the first 100 characters, followed by "..." when
      something was cut off. */
  function Preview(q: string): (r: string)
    ensures |r| <= ActiveQueryCutoff + |Ellipsis|
    ensures |q| <= ActiveQueryCutoff ==> r == q
    ensures |q| > ActiveQueryCutoff ==> r == q[..ActiveQueryCutoff] + Ellipsis
  {
    if |q| > ActiveQueryCutoff then q[..ActiveQueryCutoff] + Ellipsis else q
  }

  /** The preview starts with as much of the query as fits. */
  lemma PreviewKeepsPrefix(q: string)
    ensures var n := if |q| <= ActiveQueryCutoff then |q| else ActiveQueryCutoff;
      |Preview(q)| >= n && Preview(q)[..n] == q[..n]
  {
  }

  /** The preview is the query itself exactly when the query is short, or
      when it happens to be 100 characters followed by "..." already. */
  lemma PreviewIsQueryIff(q: string)
    ensures Preview(q) == q <==> |q| <= ActiveQueryCutoff || (|q| == ActiveQueryCutoff + 3 && q[ActiveQueryCutoff..] == Ellipsis)
  {
    if |q| > ActiveQueryCutoff {
      var p := Preview(q);
      assert |p| == ActiveQueryCutoff + 3 && p[ActiveQueryCutoff..] == Ellipsis;
      assert q == q[..ActiveQueryCutoff] + q[ActiveQueryCutoff..];
    }
  }

  function StarOf<X>(v: Viewer<X>): Star {
    Star(v.isFavorite, v.toggling == Idle)
  }

  /** What the component draws for state `v`. */
  function Render<X>(v: Viewer<X>): (d: Display<X>)
    ensures d.Nothing? <==> v.activeQuery == ""
    ensures d.Collapsed? <==> v.activeQuery != "" && !v.expanded
    ensures d.Collapsed? ==> d.preview == Preview(v.activeQuery)
    ensures d.Plain? || d.Annotated? ==> d.query == v.activeQuery
    ensures d.Annotated? <==> v.activeQuery != "" && v.expanded && v.explanations.Some? && |v.explanations.value| > 0
    ensures !d.Nothing? ==> d.star == StarOf(v)
    ensures d.Annotated? ==> d.explanations == v.explanations.value
    ensures d.Plain? ==> d.explainEnabled == !v.loadingExplanation
  {
    if |v.activeQuery| == 0 then Nothing
    else if !v.expanded then Collapsed(Preview(v.activeQuery), StarOf(v))
    else if v.explanations.Some? && |v.explanations.value| > 0 then
      Annotated(v.activeQuery, v.explanations.value, StarOf(v))
    else Plain(v.activeQuery, StarOf(v), !v.loadingExplanation)
  }

  /** A button the user can press in the current rendering. */
  predicate Pressable<X>(v: Viewer<X>, b: Button) {
    match Render(v)
    case Nothing => false
    case Collapsed(_, star) => (b == StarButton && star.enabled) || b == ShowFullButton
    case Plain(_, star, explainEnabled) => (b == StarButton && star.enabled) || (b == ExplainButton && explainEnabled)
    case Annotated(_, _, star) => b == StarButton && star.enabled
  }

  // ---------------------------------------------------------------------
  // Events

  /** The component as mounted: long queries start expanded. */
  function Mount<X>(activeQuery: string, inputValue: string): (v: Viewer<X>)
    ensures v.activeQuery == activeQuery && v.inputValue == inputValue
    ensures v.expanded <==> |activeQuery| > ActiveQueryCutoff
    ensures !v.isFavorite && v.toggling == Idle && !v.loadingExplanation && v.explanations == None
  {
    Viewer(activeQuery, inputValue, None, false, |activeQuery| > ActiveQueryCutoff, false, Idle)
  }

  /** The body the star sends. */
  function QueryBody<X>(v: Viewer<X>): Suggestions.Body {
    Suggestions.Parsed(Suggestions.JsonString(v.inputValue))
  }

  /** The favourite check runs on mount and whenever `inputValue` changes,
      and only for a non-empty question. */
  function MountRequest<X>(v: Viewer<X>): (r: Option<Request>)
    ensures r.Some? <==> v.inputValue != ""
    ensures r.Some? ==> r.value == ListSuggestions
  {
    if v.inputValue != "" then Some(ListSuggestions) else None
  }

  /** The request an event makes the component send, if any. */
  function Sends<X>(v: Viewer<X>, e: Event<X>): (r: Option<Request>)
    ensures r.Some? && r.value.ListSuggestions? ==> e.PropsChanged? && e.inputValue != v.inputValue && e.inputValue != ""
    ensures r.Some? && !r.value.ListSuggestions? ==> e == Click(StarButton) && v.toggling == Idle && v.activeQuery != ""
    ensures r.Some? && r.value.SaveSuggestion? ==> !v.isFavorite && r.value.body == QueryBody(v)
    ensures r.Some? && r.value.RemoveSuggestion? ==> v.isFavorite && r.value.body == QueryBody(v)
    ensures e.PropsChanged? && e.inputValue != v.inputValue && e.inputValue != "" ==> r == Some(ListSuggestions)
    ensures e == Click(StarButton) && v.toggling == Idle && v.activeQuery != "" ==>
              r.Some? && (r.value.RemoveSuggestion? <==> v.isFavorite)
  {
    match e
    case Click(StarButton) =>
      if Pressable(v, StarButton) then
        Some(if v.isFavorite then RemoveSuggestion(QueryBody(v)) else SaveSuggestion(QueryBody(v)))
      else None
    case PropsChanged(_, inputValue) =>
      if inputValue != v.inputValue && inputValue != "" then Some(ListSuggestions) else None
    case _ => None
  }

  /** How the component's state reacts to an event. A click on a button that
      is not offered, a toggle answer while no toggle is in flight, and an
      explanation while none is loading change nothing. A favourite check's
      answer is applied whenever it is for a non-empty question, pending or
      not. */
  function Step<X>(v: Viewer<X>, e: Event<X>): (r: Viewer<X>)
    ensures v.expanded ==> r.expanded
    ensures r.activeQuery != v.activeQuery || r.inputValue != v.inputValue ==> e.PropsChanged?
    ensures r.isFavorite != v.isFavorite ==> e.FavoriteChecked? || (e.ToggleAnswered? && Suggestions.IsOk(e.response))
    ensures v.loadingExplanation && !r.loadingExplanation ==> e.ExplanationArrived? && e.result.Success?
    ensures e == Click(ShowFullButton) && v.activeQuery != "" ==> r.expanded
    ensures e == Click(ExplainButton) && Pressable(v, ExplainButton) ==> r.expanded && r.loadingExplanation
    ensures e == Click(StarButton) && v.toggling == Idle && v.activeQuery != "" ==>
              r.toggling != Idle && (r.toggling == Removing <==> v.isFavorite)
    ensures e.PropsChanged? ==> r.activeQuery == e.activeQuery && r.inputValue == e.inputValue
    ensures e.ExplanationArrived? && e.result.Success? && v.loadingExplanation ==>
              r.explanations == Some(e.result.value) && !r.loadingExplanation
    ensures e.ToggleAnswered? ==> r.toggling == Idle
  {
    match e
    case Click(b) =>
      if !Pressable(v, b) then v
      else if b == ShowFullButton then v.(expanded := true)
      else if b == ExplainButton then v.(expanded := true, loadingExplanation := true)
      else v.(toggling := if v.isFavorite then Removing else Adding)
    case PropsChanged(activeQuery, inputValue) =>
      v.(activeQuery := activeQuery, inputValue := inputValue)
    case FavoriteChecked(forInput, response) =>
      if forInput != "" && Suggestions.IsOk(response) && response.payload.SuggestionList? then
        v.(isFavorite := forInput in response.payload.items)
      else v
    case ExplanationArrived(result) =>
      if v.loadingExplanation && result.Success? then
        v.(explanations := Some(result.value), loadingExplanation := false)
      else v
    case ToggleAnswered(response) =>
      if v.toggling == Idle then v
      else if Suggestions.IsOk(response) then v.(isFavorite := v.toggling == Adding, toggling := Idle)
      else v.(toggling := Idle)
  }

  function Run<X>(v: Viewer<X>, events: seq<Event<X>>): Viewer<X>
    decreases |events|
  {
    if events == [] then v else Run(Step(v, events[0]), events[1..])
  }

  /** How the favourites API answers each request. */
  function Serve(store: Suggestions.Store, req: Request, now: int, dbFails: bool): (h: Suggestions.Handled)
    ensures req.ListSuggestions? ==> h.store == store && h.response == Suggestions.Get(store, dbFails)
    ensures req.SaveSuggestion? ==> Suggestions.Queries(store) <= Suggestions.Queries(h.store)
    ensures req.RemoveSuggestion? ==> Suggestions.Queries(h.store) <= Suggestions.Queries(store)
  {
    match req
    case ListSuggestions => Suggestions.Handled(store, Suggestions.Get(store, dbFails))
    case SaveSuggestion(body) => Suggestions.Post(store, body, now, dbFails)
    case RemoveSuggestion(body) => Suggestions.Delete(store, body, dbFails)
  }

  // ---------------------------------------------------------------------
  // Properties

  /** Once expanded, the query stays expanded, whatever happens next. */
  lemma {:induction false} ExpandedStaysExpanded<X>(v: Viewer<X>, events: seq<Event<X>>)
    requires v.expanded
    ensures Run(v, events).expanded
    decreases |events|
  {
    if events != [] {
      ExpandedStaysExpanded(Step(v, events[0]), events[1..]);
    }
  }

  predicate NoPropsChange<X>(events: seq<Event<X>>) {
    forall k :: 0 <= k < |events| ==> !events[k].PropsChanged?
  }

  /** A collapsed viewer holds a short query. */
  predicate CollapsedOnlyWhenShort<X>(v: Viewer<X>) {
    !v.expanded ==> |v.activeQuery| <= ActiveQueryCutoff
  }

  lemma {:induction false} RunKeepsCollapsedOnlyWhenShort<X>(v: Viewer<X>, events: seq<Event<X>>)
    requires CollapsedOnlyWhenShort(v) && NoPropsChange(events)
    ensures CollapsedOnlyWhenShort(Run(v, events))
    ensures Run(v, events).activeQuery == v.activeQuery
    decreases |events|
  {
    if events != [] {
      assert !events[0].PropsChanged?;
      RunKeepsCollapsedOnlyWhenShort(Step(v, events[0]), events[1..]);
    }
  }

  /** As long as the props stay those it was mounted with, the collapsed
      preview shows the whole query: the "..." marker never appears, because
      a query longer than the cutoff starts expanded and never collapses. */
  lemma CollapsedPreviewIsWholeQuery<X>(activeQuery: string, inputValue: string, events: seq<Event<X>>)
    requires NoPropsChange(events)
    ensures var d := Render(Run(Mount<X>(activeQuery, inputValue), events));
      d.Collapsed? ==> d.preview == activeQuery
  {
    RunKeepsCollapsedOnlyWhenShort(Mount<X>(activeQuery, inputValue), events);
  }

  /** A new, longer `activeQuery` does not re-run the `useState`
      initialiser, so a collapsed viewer then shows a cut-off preview. */
  lemma LongerPropsAreCutOff<X>(v: Viewer<X>, activeQuery: string, inputValue: string)
    requires !v.expanded && |activeQuery| > ActiveQueryCutoff
    ensures var d := Render(Step(v, PropsChanged(activeQuery, inputValue)));
      && d.Collapsed?
      && d.preview == activeQuery[..ActiveQueryCutoff] + Ellipsis
      && (d.preview == activeQuery <==> |activeQuery| == ActiveQueryCutoff + 3 && activeQuery[ActiveQueryCutoff..] == Ellipsis)
  {
    PreviewIsQueryIff(activeQuery);
  }

  /** While a toggle is in flight, pressing the star neither changes the
      state nor sends a second request. */
  lemma StarIgnoredWhileToggling<X>(v: Viewer<X>)
    requires v.toggling != Idle
    ensures Step(v, Click(StarButton)) == v
    ensures Sends(v, Click(StarButton)) == None
  {
  }

  /** Every answer to a toggle ends the toggle, whether it succeeded or not. */
  lemma ToggleAnswerEndsToggle<X>(v: Viewer<X>, response: Suggestions.Response)
    ensures Step(v, ToggleAnswered(response)).toggling == Idle
    ensures !Suggestions.IsOk(response) ==> Step(v, ToggleAnswered(response)).isFavorite == v.isFavorite
  {
  }

  /** Pressing the star and receiving the store's answer keeps the star in
      step with the store: if it showed whether the question was saved
      before, it does so afterwards, also when the store refuses the request
      or fails. A failure is taken to write nothing, and the viewer receives
      the answer the handler sent. */
  lemma StarFollowsStore<X>(v: Viewer<X>, store: Suggestions.Store, now: int, dbFails: bool)
    requires v.activeQuery != "" && v.toggling == Idle
    requires v.isFavorite == (v.inputValue in Suggestions.Queries(store))
    ensures Sends(v, Click(StarButton)).Some?
    ensures var h := Serve(store, Sends(v, Click(StarButton)).value, now, dbFails);
      var after := Step(Step(v, Click(StarButton)), ToggleAnswered(h.response));
      after.toggling == Idle && after.isFavorite == (v.inputValue in Suggestions.Queries(h.store))
  {
    assert Pressable(v, StarButton);
    if v.isFavorite {
      StarRemovesSaved(v, store, now, dbFails);
    } else {
      StarSavesUnsaved(v, store, now, dbFails);
    }
  }

  lemma StarRemovesSaved<X>(v: Viewer<X>, store: Suggestions.Store, now: int, dbFails: bool)
    requires v.isFavorite && v.inputValue in Suggestions.Queries(store)
    ensures var h := Suggestions.Delete(store, QueryBody(v), dbFails);
      var after := Step(v.(toggling := Removing), ToggleAnswered(h.response));
      after.toggling == Idle && !after.isFavorite == (v.inputValue !in Suggestions.Queries(h.store))
  {
    Suggestions.DeleteAnswerTellsSaved(store, v.inputValue, dbFails);
  }

  lemma StarSavesUnsaved<X>(v: Viewer<X>, store: Suggestions.Store, now: int, dbFails: bool)
    requires !v.isFavorite && v.inputValue !in Suggestions.Queries(store)
    ensures var h := Suggestions.Post(store, QueryBody(v), now, dbFails);
      var after := Step(v.(toggling := Adding), ToggleAnswered(h.response));
      after.toggling == Idle && after.isFavorite == (v.inputValue in Suggestions.Queries(h.store))
  {
    Suggestions.PostAnswerTellsSaved(store, v.inputValue, now, dbFails);
  }

  /** The favourite check asked of the store sets the star to whether the
      question is saved; a failed check leaves the star alone. */
  lemma FavoriteCheckAgreesWithStore<X>(v: Viewer<X>, store: Suggestions.Store, dbFails: bool)
    requires v.inputValue != ""
    ensures var after := Step(v, FavoriteChecked(v.inputValue, Serve(store, ListSuggestions, 0, dbFails).response));
      && (!dbFails ==> after.isFavorite == (v.inputValue in Suggestions.Queries(store)))
      && (dbFails ==> after == v)
  {
  }

  /** The explanation spinner stops only when an explanation arrives; a
      failed explanation leaves it spinning and the explain button disabled. */
  lemma ExplainFailureKeepsSpinner<X>(v: Viewer<X>, message: string)
    requires v.activeQuery != "" && v.expanded && v.loadingExplanation
    requires v.explanations.None? || |v.explanations.value| == 0
    ensures var after := Step(v, ExplanationArrived(Failure(message)));
      after.loadingExplanation && !Pressable(after, ExplainButton)
  {
  }

  /** Asking for an explanation that comes back non-empty ends with the
      annotated query on screen. */
  lemma ExplainShowsAnnotations<X>(v: Viewer<X>, xs: seq<X>)
    requires Pressable(v, ExplainButton) && |xs| > 0
    ensures Render(Step(Step(v, Click(ExplainButton)), ExplanationArrived(Success(xs)))) == Annotated(v.activeQuery, xs, StarOf(v))
  {
  }
}

=== FILE: suggestions.dfy ===
/** The favourite-questions API (`/api/suggestions`): GET lists the saved
    questions newest first, POST saves one, DELETE removes one. The
    `suggestions` table is an abstract sequence of entries; a failure of the
    database is an oracle flag `dbFails`, and the database clock that fills
    `created_at` is the parameter `now`. */
module Suggestions {
  import opened Text

  /** One row of the `suggestions` table. */
  datatype Entry = Entry(query: string, createdAt: int)

  datatype Store = Store(entries: seq<Entry>)

  /** The `UNIQUE` constraint on `suggestions.query`. */
  predicate UniqueQueries(s: Store) {
    forall i, j :: 0 <= i < j < |s.entries| ==> s.entries[i].query != s.entries[j].query
  }

  /** Every saved question passed POST's check. */
  predicate OnlyValidQueries(s: Store) {
    forall e :: e in s.entries ==> ValidPostQuery(JsonString(e.query))
  }

  function Queries(s: Store): set<string> {
    set e | e in s.entries :: e.query
  }

  /** The `query` field of a request's JSON body. */
  datatype Field = Missing | JsonString(value: string) | OtherJson

  /** A request body: `request.json()` either fails (malformed JSON, or a
      `null` body that cannot be destructured) or yields the `query` field. */
  datatype Body = Unparsable | Parsed(query: Field)

  datatype Payload = Succeeded | SuggestionList(items: seq<string>) | ErrorMessage(message: string)

  datatype Response = Response(status: int, payload: Payload)

  /** `response.ok` as the browser reports it. */
  predicate IsOk(r: Response) {
    200 <= r.status <= 299
  }

  /** The store after a handler ran, and the response it sent. */
  datatype Handled = Handled(store: Store, response: Response)

  const InvalidQueryMessage := "Query inválida"
  const ListFailureMessage := "Erro ao buscar sugestões"
  const SaveFailureMessage := "Erro ao salvar sugestão"
  const RemoveFailureMessage := "Erro ao remover sugestão"

  // ---------------------------------------------------------------------
  // GET

  /** The order of `ORDER BY created_at DESC`. */
  predicate NewestFirstOrder(es: seq<Entry>) {
    forall i, j :: 0 <= i < j < |es| ==> es[i].createdAt >= es[j].createdAt
  }

  /** Puts `e` in front of the first row that is not newer than it. */
  function InsertNewestFirst(e: Entry, es: seq<Entry>): seq<Entry> {
    if es == [] || e.createdAt >= es[0].createdAt then [e] + es
    else [es[0]] + InsertNewestFirst(e, es[1..])
  }

  lemma {:induction false} InsertNewestFirstMembers(e: Entry, es: seq<Entry>)
    ensures forall x :: x in InsertNewestFirst(e, es) <==> x == e || x in es
  {
    if es != [] && e.createdAt < es[0].createdAt {
      InsertNewestFirstMembers(e, es[1..]);
      assert es == [es[0]] + es[1..];
    }
  }

  lemma {:induction false} InsertNewestFirstCounts(e: Entry, es: seq<Entry>)
    ensures multiset(InsertNewestFirst(e, es)) == multiset(es) + multiset{e}
  {
    if es != [] && e.createdAt < es[0].createdAt {
      InsertNewestFirstCounts(e, es[1..]);
      assert es == [es[0]] + es[1..];
    }
  }

  lemma {:induction false} InsertNewestFirstSorted(e: Entry, es: seq<Entry>)
    requires NewestFirstOrder(es)
    ensures NewestFirstOrder(InsertNewestFirst(e, es))
  {
    if es != [] && e.createdAt < es[0].createdAt {
      var rest := InsertNewestFirst(e, es[1..]);
      InsertNewestFirstSorted(e, es[1..]);
      InsertNewestFirstMembers(e, es[1..]);
      forall x | x in es[1..]
        ensures x.createdAt <= es[0].createdAt
      {
        var k :| 0 <= k < |es[1..]| && es[1..][k] == x;
        assert es[k + 1] == x;
      }
      var r := [es[0]] + rest;
      forall i, j | 0 <= i < j < |r|
        ensures r[i].createdAt >= r[j].createdAt
      {
        assert r[j] == rest[j - 1];
        if i == 0 {
          assert rest[j - 1] in rest;
        } else {
          assert r[i] == rest[i - 1];
        }
      }
    }
  }

  /** The rows of the table in `ORDER BY created_at DESC` order: the same
      rows, each as often as stored, newest first. Rows with equal timestamps
      come in an order the database leaves open; this one fixes one. */
  function NewestFirst(es: seq<Entry>): (r: seq<Entry>)
    ensures NewestFirstOrder(r)
    ensures multiset(r) == multiset(es)
  {
    if es == [] then []
    else
      assert es == [es[0]] + es[1..];
      InsertNewestFirstSorted(es[0], NewestFirst(es[1..]));
      InsertNewestFirstCounts(es[0], NewestFirst(es[1..]));
      InsertNewestFirst(es[0], NewestFirst(es[1..]))
  }

  /** `rows.map(row => row.query)`. */
  function Texts(es: seq<Entry>): (r: seq<string>)
    ensures |r| == |es|
    ensures forall i :: 0 <= i < |es| ==> r[i] == es[i].query
  {
    seq(|es|, i requires 0 <= i < |es| => es[i].query)
  }

  /** GET: the saved questions, newest first, or a 500 response when the
      database fails. */
  function Get(s: Store, dbFails: bool): (r: Response)
    ensures dbFails ==> r == Response(500, ErrorMessage(ListFailureMessage))
    ensures !dbFails ==> r.status == 200 && r.payload.SuggestionList?
    ensures !dbFails ==> forall q :: q in r.payload.items <==> q in Queries(s)
  {
    if dbFails then
      Response(500, ErrorMessage(ListFailureMessage))
    else
      var listed := NewestFirst(s.entries);
      assert forall e :: e in listed <==> e in s.entries by {
        forall e ensures e in listed <==> e in s.entries {
          assert e in listed <==> e in multiset(listed);
        }
      }
      Response(200, SuggestionList(Texts(listed)))
  }

  /** The list GET sends is the table's rows ordered newest first. */
  lemma GetListsNewestFirst(s: Store)
    ensures var items := Get(s, false).payload.items;
      exists listed :: NewestFirstOrder(listed) && multiset(listed) == multiset(s.entries) && items == Texts(listed)
  {
    var listed := NewestFirst(s.entries);
    assert Get(s, false).payload.items == Texts(listed);
  }

  // ---------------------------------------------------------------------
  // POST

  /** POST's check: a string that is neither empty nor whitespace only. */
  predicate ValidPostQuery(f: Field) {
    f.JsonString? && f.value != "" && Trim(f.value) != ""
  }

  /** `INSERT … ON CONFLICT (query) DO NOTHING`. */
  function Insert(s: Store, q: string, now: int): Store {
    if q in Queries(s) then s else Store(s.entries + [Entry(q, now)])
  }

  /** POST: saves a valid question unless it is already saved; every other
      outcome leaves the table as it was. */
  function Post(s: Store, body: Body, now: int, dbFails: bool): (r: Handled)
    ensures body.Unparsable? ==> r == Handled(s, Response(500, ErrorMessage(SaveFailureMessage)))
    ensures body.Parsed? && !ValidPostQuery(body.query) ==> r == Handled(s, Response(400, ErrorMessage(InvalidQueryMessage)))
    ensures body.Parsed? && ValidPostQuery(body.query) && dbFails ==> r == Handled(s, Response(500, ErrorMessage(SaveFailureMessage)))
    ensures r.response.status == 200 <==> body.Parsed? && ValidPostQuery(body.query) && !dbFails
    ensures r.response.status == 200 ==> r.response.payload == Succeeded
    ensures r.response.status == 200 ==> Queries(r.store) == Queries(s) + {body.query.value}
    ensures r.response.status == 200 && body.query.value in Queries(s) ==> r.store == s
    ensures r.response.status == 200 && body.query.value !in Queries(s) ==>
              r.store.entries == s.entries + [Entry(body.query.value, now)]
  {
    match body
    case Unparsable => Handled(s, Response(500, ErrorMessage(SaveFailureMessage)))
    case Parsed(f) =>
      if !ValidPostQuery(f) then Handled(s, Response(400, ErrorMessage(InvalidQueryMessage)))
      else if dbFails then Handled(s, Response(500, ErrorMessage(SaveFailureMessage)))
      else Handled(Insert(s, f.value, now), Response(200, Succeeded))
  }

  /** Saving a question twice leaves the table as saving it once, whatever
      the clock says the second time. */
  lemma PostIdempotent(s: Store, body: Body, now1: int, now2: int, dbFails: bool)
    ensures var once := Post(s, body, now1, dbFails).store;
      Post(once, body, now2, dbFails).store == once
  {
  }

  /** The table never holds the same question twice. */
  lemma PostKeepsQueriesUnique(s: Store, body: Body, now: int, dbFails: bool)
    requires UniqueQueries(s)
    ensures UniqueQueries(Post(s, body, now, dbFails).store)
  {
    var r := Post(s, body, now, dbFails);
    if r.response.status == 200 && body.query.value !in Queries(s) {
      var es := r.store.entries;
      forall i, j | 0 <= i < j < |es|
        ensures es[i].query != es[j].query
      {
        if j == |es| - 1 {
          assert es[i] in s.entries;
        }
      }
    }
  }

  /** Only questions that pass POST's check are ever saved. */
  lemma PostKeepsOnlyValidQueries(s: Store, body: Body, now: int, dbFails: bool)
    requires OnlyValidQueries(s)
    ensures OnlyValidQueries(Post(s, body, now, dbFails).store)
  {
  }

  /** A whitespace-only question is refused by POST and accepted by DELETE. */
  lemma BlankQueryOnlyDeletable(s: Store, q: string, now: int)
    requires q != "" && AllTrimmable(q)
    ensures Post(s, Parsed(JsonString(q)), now, false).response.status == 400
    ensures Delete(s, Parsed(JsonString(q)), false).response.status == 200
  {
    assert Pads(q, "", |q|);
    TrimCharacterized(q, "", |q|);
  }

  // ---------------------------------------------------------------------
  // DELETE

  /** DELETE's check: a non-empty string; unlike POST, whitespace is fine. */
  predicate ValidDeleteQuery(f: Field) {
    f.JsonString? && f.value != ""
  }

  /** `DELETE FROM suggestions WHERE query = $1`: the rows, in order, less
      those holding question `q`. */
  function Without(es: seq<Entry>, q: string): seq<Entry> {
    if es == [] then []
    else (if es[0].query == q then [] else [es[0]]) + Without(es[1..], q)
  }

  /** Every row with that question goes; every other row stays, as often as
      it was stored. */
  lemma {:induction false} WithoutCounts(es: seq<Entry>, q: string)
    ensures forall e: Entry :: multiset(Without(es, q))[e] == if e.query == q then 0 else multiset(es)[e]
  {
    if es != [] {
      assert es == [es[0]] + es[1..];
      WithoutCounts(es[1..], q);
    }
  }

  lemma WithoutMembers(es: seq<Entry>, q: string)
    ensures forall e :: e in Without(es, q) <==> e in es && e.query != q
  {
    WithoutCounts(es, q);
    forall e ensures e in Without(es, q) <==> e in es && e.query != q {
      assert e in Without(es, q) <==> e in multiset(Without(es, q));
      assert e in es <==> e in multiset(es);
    }
  }

  function Remove(s: Store, q: string): Store {
    Store(Without(s.entries, q))
  }

  /** DELETE: removes the question if it is saved and succeeds all the same
      if it is not; every other outcome leaves the table as it was. */
  function Delete(s: Store, body: Body, dbFails: bool): (r: Handled)
    ensures body.Unparsable? ==> r == Handled(s, Response(500, ErrorMessage(RemoveFailureMessage)))
    ensures body.Parsed? && !ValidDeleteQuery(body.query) ==> r == Handled(s, Response(400, ErrorMessage(InvalidQueryMessage)))
    ensures body.Parsed? && ValidDeleteQuery(body.query) && dbFails ==> r == Handled(s, Response(500, ErrorMessage(RemoveFailureMessage)))
    ensures r.response.status == 200 <==> body.Parsed? && ValidDeleteQuery(body.query) && !dbFails
    ensures r.response.status == 200 ==> r.response.payload == Succeeded
    ensures r.response.status == 200 ==> Queries(r.store) == Queries(s) - {body.query.value}
    ensures r.response.status == 200 ==> forall e: Entry :: e.query != body.query.value ==>
              multiset(r.store.entries)[e] == multiset(s.entries)[e]
    ensures r.response.status == 200 ==> forall e: Entry :: e.query == body.query.value ==>
              multiset(r.store.entries)[e] == 0
    ensures r.response.status == 200 && body.query.value !in Queries(s) ==> r.store == s
  {
    match body
    case Unparsable => Handled(s, Response(500, ErrorMessage(RemoveFailureMessage)))
    case Parsed(f) =>
      if !ValidDeleteQuery(f) then Handled(s, Response(400, ErrorMessage(InvalidQueryMessage)))
      else if dbFails then Handled(s, Response(500, ErrorMessage(RemoveFailureMessage)))
      else
        RemoveFacts(s, f.value);
        Handled(Remove(s, f.value), Response(200, Succeeded))
  }

  lemma RemoveFacts(s: Store, q: string)
    ensures Queries(Remove(s, q)) == Queries(s) - {q}
    ensures forall e: Entry :: multiset(Remove(s, q).entries)[e] == if e.query == q then 0 else multiset(s.entries)[e]
    ensures q !in Queries(s) ==> Remove(s, q) == s
  {
    WithoutCounts(s.entries, q);
    RemoveQueries(s, q);
    if q !in Queries(s) {
      assert forall e :: e in s.entries ==> e.query in Queries(s);
      WithoutAbsent(s.entries, q);
    }
  }

  lemma RemoveQueries(s: Store, q: string)
    ensures Queries(Remove(s, q)) == Queries(s) - {q}
  {
    var r := Remove(s, q);
    WithoutMembers(s.entries, q);
    forall x | x in Queries(r)
      ensures x in Queries(s) - {q}
    {
      var e :| e in r.entries && e.query == x;
      assert e in s.entries;
    }
    forall x | x in Queries(s) - {q}
      ensures x in Queries(r)
    {
      var e :| e in s.entries && e.query == x;
      assert e in r.entries;
    }
  }

  lemma {:induction false} WithoutAbsent(es: seq<Entry>, q: string)
    requires forall e :: e in es ==> e.query != q
    ensures Without(es, q) == es
  {
    if es != [] {
      WithoutAbsent(es[1..], q);
    }
  }

  lemma DeleteKeepsQueriesUnique(s: Store, body: Body, dbFails: bool)
    requires UniqueQueries(s)
    ensures UniqueQueries(Delete(s, body, dbFails).store)
  {
    if body.Parsed? && ValidDeleteQuery(body.query) && !dbFails {
      assert Delete(s, body, dbFails).store == Remove(s, body.query.value);
      WithoutKeepsUnique(s.entries, body.query.value);
    }
  }

  lemma {:induction false} WithoutKeepsUnique(es: seq<Entry>, q: string)
    requires UniqueQueries(Store(es))
    ensures UniqueQueries(Store(Without(es, q)))
  {
    if es != [] {
      TailUnique(es);
      WithoutKeepsUnique(es[1..], q);
      var rest := Without(es[1..], q);
      if es[0].query == q {
        assert Without(es, q) == rest;
      } else {
        assert Without(es, q) == [es[0]] + rest;
        WithoutMembers(es[1..], q);
        HeadQueryNotInTail(es);
        ConsUnique(es[0], rest);
      }
    }
  }

  lemma TailUnique(es: seq<Entry>)
    requires es != [] && UniqueQueries(Store(es))
    ensures UniqueQueries(Store(es[1..]))
  {
    assert forall i :: 0 <= i < |es[1..]| ==> es[1..][i] == es[i + 1];
  }

  lemma HeadQueryNotInTail(es: seq<Entry>)
    requires es != [] && UniqueQueries(Store(es))
    ensures forall x :: x in es[1..] ==> x.query != es[0].query
  {
    forall x | x in es[1..]
      ensures x.query != es[0].query
    {
      var k :| 0 <= k < |es[1..]| && es[1..][k] == x;
      assert es[k + 1] == x;
    }
  }

  lemma ConsUnique(e: Entry, rest: seq<Entry>)
    requires UniqueQueries(Store(rest))
    requires forall x :: x in rest ==> x.query != e.query
    ensures UniqueQueries(Store([e] + rest))
  {
    var r := [e] + rest;
    forall i, j | 0 <= i < j < |r|
      ensures r[i].query != r[j].query
    {
      assert r[j] == rest[j - 1];
      if i == 0 {
        assert rest[j - 1] in rest;
      } else {
        assert r[i] == rest[i - 1];
      }
    }
  }

  lemma DeleteKeepsOnlyValidQueries(s: Store, body: Body, dbFails: bool)
    requires OnlyValidQueries(s)
    ensures OnlyValidQueries(Delete(s, body, dbFails).store)
  {
    if body.Parsed? && ValidDeleteQuery(body.query) && !dbFails {
      WithoutMembers(s.entries, body.query.value);
    }
  }

  /** For a saved question, DELETE's answer says whether it is still saved:
      a success response means it is gone, a failure means it is still there. */
  lemma DeleteAnswerTellsSaved(s: Store, q: string, dbFails: bool)
    requires q in Queries(s)
    ensures var h := Delete(s, Parsed(JsonString(q)), dbFails);
      IsOk(h.response) <==> q !in Queries(h.store)
  {
  }

  /** For a question not saved, POST's answer says whether it is saved now. */
  lemma PostAnswerTellsSaved(s: Store, q: string, now: int, dbFails: bool)
    requires q !in Queries(s)
    ensures var h := Post(s, Parsed(JsonString(q)), now, dbFails);
      IsOk(h.response) <==> q in Queries(h.store)
  {
  }

  /** Deleting a question that a successful POST has just added restores the
      table. */
  lemma DeleteUndoesPost(s: Store, q: string, now: int)
    requires ValidPostQuery(JsonString(q)) && q !in Queries(s)
    ensures Delete(Post(s, Parsed(JsonString(q)), now, false).store, Parsed(JsonString(q)), false).store == s
  {
    WithoutAppend(s.entries, [Entry(q, now)], q);
    WithoutAbsent(s.entries, q);
  }

  lemma {:induction false} WithoutAppend(a: seq<Entry>, b: seq<Entry>, q: string)
    ensures Without(a + b, q) == Without(a, q) + Without(b, q)
  {
    if a != [] {
      assert (a + b)[1..] == a[1..] + b;
      WithoutAppend(a[1..], b, q);
    } else {
      assert a + b == b;
    }
  }
}

=== FILE: text.dfy ===
/** The JavaScript string operations the application relies on:
    `trim`, `toLowerCase`, `startsWith` and `includes`, over strings of
    Unicode scalar values. */
module Text {

  /** The code points `String.prototype.trim` strips from both ends: the
      WhiteSpace and LineTerminator productions of ECMA-262 (sections 12.2
      and 12.3), where WhiteSpace includes every code point of Unicode
      general category Zs. */
  predicate IsTrimmable(c: char) {
    var n := c as int;
    || n == 0x09 || n == 0x0A || n == 0x0B || n == 0x0C || n == 0x0D
    || n == 0x20 || n == 0xA0 || n == 0x1680 || 0x2000 <= n <= 0x200A
    || n == 0x2028 || n == 0x2029 || n == 0x202F || n == 0x205F
    || n == 0x3000 || n == 0xFEFF
  }

  predicate AllTrimmable(s: string) {
    forall k :: 0 <= k < |s| ==> IsTrimmable(s[k])
  }

  /** `s` is `r` surrounded by trimmable padding, with `r` starting at index `i`. */
  ghost predicate Pads(s: string, r: string, i: int) {
    && 0 <= i && i + |r| <= |s|
    && s[i..i + |r|] == r
    && (forall k :: 0 <= k < i ==> IsTrimmable(s[k]))
    && (forall k :: i + |r| <= k < |s| ==> IsTrimmable(s[k]))
  }

  /** Neither end of `r` can be trimmed any further. */
  predicate Unpadded(r: string) {
    r == [] || (!IsTrimmable(r[0]) && !IsTrimmable(r[|r| - 1]))
  }

  /** The first index at or after `i` that does not hold padding, or `|s|`. */
  function SkipForward(s: string, i: nat): (r: nat)
    requires i <= |s|
    ensures i <= r <= |s|
    ensures forall k :: i <= k < r ==> IsTrimmable(s[k])
    ensures r == |s| || !IsTrimmable(s[r])
    decreases |s| - i
  {
    if i < |s| && IsTrimmable(s[i]) then SkipForward(s, i + 1) else i
  }

  /** The index just past the last character in `s[lo..j]` that is not
      padding, or `lo`. */
  function SkipBackward(s: string, lo: nat, j: nat): (r: nat)
    requires lo <= j <= |s|
    ensures lo <= r <= j
    ensures forall k :: r <= k < j ==> IsTrimmable(s[k])
    ensures r == lo || !IsTrimmable(s[r - 1])
  {
    if j > lo && IsTrimmable(s[j - 1]) then SkipBackward(s, lo, j - 1) else j
  }

  /** Where the trimmed string starts inside `s`. */
  function TrimOffset(s: string): (i: nat)
    ensures i <= |s|
  {
    SkipForward(s, 0)
  }

  /** `String.prototype.trim`: `s` without its leading and trailing
      whitespace and line terminators. */
  function Trim(s: string): (r: string)
    ensures Pads(s, r, TrimOffset(s))
    ensures Unpadded(r)
  {
    var a := SkipForward(s, 0);
    var b := SkipBackward(s, a, |s|);
    s[a..b]
  }

  lemma {:induction false} SkipForwardStopsAt(s: string, i: nat, j: nat)
    requires i <= j <= |s| && (j == |s| || !IsTrimmable(s[j]))
    requires forall k :: i <= k < j ==> IsTrimmable(s[k])
    ensures SkipForward(s, i) == j
    decreases j - i
  {
    if i < j {
      SkipForwardStopsAt(s, i + 1, j);
    }
  }

  lemma {:induction false} SkipBackwardStopsAt(s: string, lo: nat, i: nat, j: nat)
    requires lo <= i <= j <= |s| && (i == lo || !IsTrimmable(s[i - 1]))
    requires forall k :: i <= k < j ==> IsTrimmable(s[k])
    ensures SkipBackward(s, lo, j) == i
    decreases j - i
  {
    if i < j {
      SkipBackwardStopsAt(s, lo, i, j - 1);
    }
  }

  /** Trimming has exactly one possible outcome: any unpadded infix that only
      padding surrounds is the trimmed string. */
  lemma TrimCharacterized(s: string, r: string, i: int)
    requires Pads(s, r, i) && Unpadded(r)
    ensures Trim(s) == r
  {
    if r == [] {
      SkipForwardStopsAt(s, 0, |s|);
      SkipBackwardStopsAt(s, |s|, |s|, |s|);
    } else {
      assert s[i] == r[0] && s[i + |r| - 1] == r[|r| - 1];
      SkipForwardStopsAt(s, 0, i);
      SkipBackwardStopsAt(s, i, i + |r|, |s|);
    }
  }

  /** Adding or removing leading and trailing padding does not change the
      trimmed string. */
  lemma TrimIgnoresPadding(pre: string, s: string, post: string)
    requires AllTrimmable(pre) && AllTrimmable(post)
    ensures Trim(pre + s + post) == Trim(s)
  {
    var t := Trim(s);
    var i := TrimOffset(s);
    PadsExtend(pre, s, post, t, i);
    TrimCharacterized(pre + s + post, t, |pre| + i);
  }

  lemma PadsExtend(pre: string, s: string, post: string, t: string, i: int)
    requires AllTrimmable(pre) && AllTrimmable(post)
    requires Pads(s, t, i)
    ensures Pads(pre + s + post, t, |pre| + i)
  {
    var whole := pre + s + post;
    assert whole[|pre| + i..|pre| + i + |t|] == s[i..i + |t|];
    forall k | 0 <= k < |pre| + i
      ensures IsTrimmable(whole[k])
    {
      if k < |pre| { assert whole[k] == pre[k]; } else { assert whole[k] == s[k - |pre|]; }
    }
    forall k | |pre| + i + |t| <= k < |whole|
      ensures IsTrimmable(whole[k])
    {
      if k < |pre| + |s| { assert whole[k] == s[k - |pre|]; } else { assert whole[k] == post[k - |pre| - |s|]; }
    }
  }

  lemma TrimIdempotent(s: string)
    ensures Trim(Trim(s)) == Trim(s)
  {
    var t := Trim(s);
    assert Pads(t, t, 0);
    TrimCharacterized(t, t, 0);
  }

  /** `String.prototype.toLowerCase` on one code point, for the code points
      whose lower-case form is a single ASCII letter: `A`-`Z`, and the Kelvin
      sign U+212A, which lower-cases to `k`. Every other code point is left as
      it is. */
  function LowerChar(c: char): char {
    if 'A' <= c <= 'Z' then (c as int + 32) as char
    else if c as int == 0x212A then 'k'
    else c
  }

  /** `String.prototype.toLowerCase`, one code point at a time. */
  function Lower(s: string): (r: string)
    ensures |r| == |s|
    ensures forall k :: 0 <= k < |s| ==> r[k] == LowerChar(s[k])
  {
    seq(|s|, k requires 0 <= k < |s| => LowerChar(s[k]))
  }

  lemma LowerKeepsTrimmable(c: char)
    ensures IsTrimmable(LowerChar(c)) <==> IsTrimmable(c)
  {
  }

  /** Lower-casing an already lower-cased string changes nothing. */
  lemma LowerIdempotent(s: string)
    ensures Lower(Lower(s)) == Lower(s)
  {
    assert forall k :: 0 <= k < |s| ==> LowerChar(LowerChar(s[k])) == LowerChar(s[k]);
  }

  lemma LowerAppend(a: string, b: string)
    ensures Lower(a + b) == Lower(a) + Lower(b)
  {
    var l, r := Lower(a + b), Lower(a) + Lower(b);
    forall k | 0 <= k < |l|
      ensures l[k] == r[k]
    {
      if k < |a| {
        assert (a + b)[k] == a[k] && r[k] == Lower(a)[k];
      } else {
        assert (a + b)[k] == b[k - |a|] && r[k] == Lower(b)[k - |a|];
      }
    }
  }

  lemma LowerSlice(s: string, a: int, b: int)
    requires 0 <= a <= b <= |s|
    ensures Lower(s)[a..b] == Lower(s[a..b])
  {
    assert forall k :: 0 <= k < b - a ==> Lower(s)[a..b][k] == LowerChar(s[a + k]) == Lower(s[a..b])[k];
  }

  /** Trimming and lower-casing commute, because lower-casing never turns
      padding into text or text into padding. */
  lemma TrimLowerCommute(s: string)
    ensures Lower(Trim(s)) == Trim(Lower(s))
  {
    var t := Trim(s);
    var i := TrimOffset(s);
    PadsLower(s, t, i);
    UnpaddedLower(t);
    TrimCharacterized(Lower(s), Lower(t), i);
  }

  lemma PadsLower(s: string, t: string, i: int)
    requires Pads(s, t, i)
    ensures Pads(Lower(s), Lower(t), i)
  {
    var ls, lt := Lower(s), Lower(t);
    forall k | 0 <= k < |ls|
      ensures IsTrimmable(ls[k]) <==> IsTrimmable(s[k])
    {
      LowerKeepsTrimmable(s[k]);
    }
    forall k | 0 <= k < |t|
      ensures ls[i..i + |t|][k] == lt[k]
    {
      assert s[i + k] == t[k];
    }
  }

  lemma UnpaddedLower(t: string)
    requires Unpadded(t)
    ensures Unpadded(Lower(t))
  {
    if t != [] {
      LowerKeepsTrimmable(t[0]);
      LowerKeepsTrimmable(t[|t| - 1]);
    }
  }

  /** `String.prototype.startsWith`. */
  predicate StartsWith(s: string, prefix: string) {
    |prefix| <= |s| && s[..|prefix|] == prefix
  }

  /** `word` occurs in `s` starting at index `i`. */
  predicate OccursAt(s: string, word: string, i: int) {
    0 <= i && i + |word| <= |s| && s[i..i + |word|] == word
  }

  /** `String.prototype.includes`: `word` occurs in `s` at some position. */
  predicate Includes(s: string, word: string) {
    exists i | 0 <= i <= |s| - |word| :: OccursAt(s, word, i)
  }
}

=== FILE: wrappers.dfy ===
/** Failure-carrying values shared by the modules of this model: `Option` for
    "maybe nothing", `Result` for a value or the message of a thrown error. */
module Wrappers {

  datatype Option<+T> = None | Some(value: T)

  /** A JavaScript promise that either resolves to `value` or rejects with an
      error whose message is `error`. */
  datatype Result<+T, +E> = Success(value: T) | Failure(error: E)
}
